=== FILE: README.md ===
# SunTec monitoring app — a Dafny model of its core

SunTec is a small web application for devices that report readings (`estado`,
`nivel`, `valor`, timestamped `ts`). It has an Express gateway in front of two
Firebase projects, and a single-page browser client with a service worker.
This project models the parts of that system that decide what data is
stored, served and shown, and proves properties of them:

- **Reading store** (`public/core/db.js`). The browser's IndexedDB store of
  readings: auto-increment ids, normalised rows, the latest-reading read, the
  paged range read through the `(deviceId, ts)` index, pruning, and the `kv`
  store. Module `ReadingStore`; the `day` key is in `DayKey`.
- **Gateway** (`api/server.js`):
  - the `authGuard` middleware and the stream route's own credential check
    (`GatewayAuth`);
  - register and login (`GatewayAccounts`);
  - `/state/last` and the `/state` range listing over Firestore
    (`GatewayState`);
  - the server-sent event stream (`EventStream`). This covers the frames the
    server writes, one connection's lifecycle, and a client-side event-stream
    parser following sections 9.2.5 and 9.2.6 of the WHATWG HTML Living
    Standard. That parser is what lets the round trip from frames to events
    be stated.
- **Client** (`Router`, `Sidebar`, `Dashboard`):
  - the hash router (`public/core/router.js`);
  - the sidebar's visibility and active link
    (`public/components/sidebar/sidebar.js`);
  - the dashboard's user name and logout
    (`public/screens/dashboard/dashboard.js`).

  `Session` puts their three notions of "signed in" side by side.
- **Service worker** (`public/serviceWorker.js`). The cache names, the
  static-extension classifier, `install`, `activate` and the two fetch
  strategies over a model of the Cache API. Module `ServiceWorker`.

Shared vocabulary lives in `Wrappers` (`Option`, `Result`), `Strings`
(prefixes, ASCII lower-casing, JavaScript `trim`, decimal digits), `Js`
(JavaScript values, truthiness, `??`, `||`) and `WebStorage` (the two storage
areas). Error messages, status codes, cache names, storage keys and limits
are the source's constants.

## Functions passed in as parameters

Whatever the model cannot see is handed to it as a function-typed parameter:

| Parameter type | Stands for |
|---|---|
| `Calendar` | `new Date(ms)` in the host time zone, for a timestamp within the range of time values |
| `Verifier` | `verifyIdToken` |
| `UserCreator`, `ProfileWriter`, `SignInService` | the identity provider and the profile write |
| `Serialiser` | `JSON.stringify` |
| `Loader` | a screen's `import()` and `render` |
| `UserParser` | `JSON.parse` of the stored user |
| `Network` and `fetch` | the network |

A Firestore backend is a value: not initialised, failing with a message, or
holding each device's documents. Each asynchronous handler is one atomic
transition of an immutable state.

## Model

| member | source | states |
|---|---|---|
| `ReadingStore.KvSet` | public/core/db.js:39-42 | `put` of `{key, value}` adds the key or replaces its value; every other key keeps its value and the readings are untouched |
| `ReadingStore.KvDel` | public/core/db.js:48-51 | deleting removes exactly that key; the other records and the readings are untouched |
| `ReadingStore.KvGet` | public/core/db.js:43-47 | a stored record's value, and `undefined` for a key with no record |
| `ReadingStore.KvGetAfterSet` | public/core/db.js:39-47 | `kvGet` after `kvSet` returns the value just set, and other keys read as before |
| `ReadingStore.KvGetAfterDel` | public/core/db.js:43-51 | `kvGet` after `kvDel` yields `undefined`, and other keys read as before |
| `ReadingStore.KvSetOverwrites` | public/core/db.js:39-42 | a second `kvSet` on a key wins, as if the first had not happened |
| `ReadingStore.NormaliseRow` | public/core/db.js:68-75 | the stored row keeps device, `ts` and `estado`; it takes its day from the local calendar date of `ts`, which is an Invalid Date exactly when `ts` lies beyond ±8.64e15; a missing (`null` or `undefined`) `valor` or `nivel` becomes 0, and a given one is kept as it is |
| `ReadingStore.AddState` | public/core/db.js:66-77 | `add` under the key generator's next id (generators start at 1). The new key was free; no existing row changes; `kv` is untouched; the store invariant is kept |
| `ReadingStore.AddTwiceKeepsBoth` | public/core/db.js:66-77 | adding the same reading twice stores two rows under different ids (no deduplication on device and `ts`) |
| `ReadingStore.AddStatesBulk` | public/core/db.js:83-99 | an empty list changes nothing. Otherwise the element at position i is stored under next id + i, normalised as by `addState`, and earlier rows and `kv` are untouched |
| `ReadingStore.BulkRowCount` | public/core/db.js:83-99 | a bulk insert of n readings grows the row count by exactly n |
| `ReadingStore.GetLastState` | public/core/db.js:105-124 | the first entry of a reverse cursor over `[deviceId, -1]..[deviceId, MAX_SAFE_INTEGER]`: the largest `ts`, ties going to the largest id, or `undefined` when no row of the device is in range |
| `ReadingStore.LastStateUnique` | public/core/db.js:105-124 | that description picks one answer for every store |
| `ReadingStore.AddThenLast` | public/core/db.js:66-124 | after adding an in-range reading at least as new as every stored one of its device, `getLastState` returns the new row |
| `ReadingStore.PageSize` | public/core/db.js:130 | an omitted `limit` is 1000; a negative one admits no row |
| `ReadingStore.GetStatesByRange` | public/core/db.js:130-152 | fails (the key range throws `DataError`) exactly when `fromMs > toMs`. Otherwise it yields the first `min(limit, matches)` rows of the device with `fromMs <= ts <= toMs`, ascending by `(ts, id)`, each ahead of every matching row left out |
| `ReadingStore.RangePagePrefix` | public/core/db.js:141-148 | over the same range, a page taken with a smaller limit is a prefix of the page taken with a larger one |
| `ReadingStore.PruneBefore` | public/core/db.js:158-174 | deletes exactly the rows of any device with `ts < cut`; the survivors, the key generator and `kv` are unchanged |
| `ReadingStore.PruneComposes` | public/core/db.js:158-174 | pruning at a then at b is pruning once at the later cut; pruning is idempotent |
| `ReadingStore.PruneKeepsLaterRanges` | public/core/db.js:158-174 | a range read starting at or after the cut gets the same page before and after the prune |
| `DayKey.Yyyymmdd` | public/core/db.js:55-60 | the key is the year's decimal text followed by four digits that read back as the month and the day |
| `DayKey.LocalDate` | public/core/db.js:56 | `new Date(ms)` is an Invalid Date exactly when `ms` lies beyond ±8.64e15, and otherwise the host calendar's date |
| `DayKey.DayKeyOfTimestamp` | public/core/db.js:55-60 | the key is `NaNNaNNaN` exactly when the timestamp is beyond the range of time values; otherwise it is the calendar date's key |
| `DayKey.YyyymmddRoundTrip` | public/core/db.js:55-60 | for four-digit years the key has eight digits and parses back to the same civil date |
| `GatewayAuth.HeaderToken` | api/server.js:100-101 | a token is taken exactly when the header starts with `Bearer ` (case-sensitive), and the header is then the prefix plus the token |
| `GatewayAuth.GuardToken` | api/server.js:102-103 | the header token when it is non-empty, else the query token when it is non-empty, else none |
| `GatewayAuth.AuthGuard` | api/server.js:98-113 | 401 `No token provided` iff there is no usable token. 401 `Invalid or expired token` iff verification fails. The route runs, with the verified claims, iff verification succeeds |
| `GatewayAuth.GuardTokenSource` | api/server.js:100-105 | the verified token is never empty and comes from one of the two sources; there is none iff neither source has a usable token |
| `GatewayAuth.LowerCaseSchemeIgnored` | api/server.js:101 | `bearer abc` yields no token |
| `GatewayAuth.StreamToken` | api/server.js:238-240 | the stream route prefers the query token over the header token; otherwise the empty string |
| `GatewayAuth.StreamAuth` | api/server.js:240-242 | an empty token ends with 401 and no body iff there is none. A failed verification answers 401 `Unauthorized` (the outer catch). The stream opens iff a non-empty token verifies, and then with its claims |
| `GatewayAuth.PrecedenceReversed` | api/server.js:103 | with two different usable tokens, `authGuard` verifies the header's and the stream route the query's. With one usable source they agree, and both find no token in the same cases |
| `GatewayAccounts.ProfileOf` | api/server.js:123-132 | the profile keeps email and display name and replaces each falsy optional field by `''` |
| `GatewayAccounts.Register` | api/server.js:117-138 | missing credentials: 400 with no upstream call. Otherwise `createUser` comes first, with `displayName` defaulting to `''` only when absent. 200 `{uid, email}` iff creation and the profile write both succeed; a failed `createUser` is 400 with its message after that one call, and a failed profile write is 400 with its message after both calls |
| `GatewayAccounts.RegisterWritesProfile` | api/server.js:122-134 | a successful registration made exactly two upstream calls, the second writing the profile under the answered uid, with no nullish optional field |
| `GatewayAccounts.Login` | api/server.js:141-164 | missing credentials: 400 with no call. A rejected sign-in: 500 `Server error`. A non-ok reply: its own status with `error.message` or `Login failed`. The token body comes back iff the reply is ok, and then carries the reply's tokens |
| `GatewayAccounts.LoginFailureReported` | api/server.js:153 | a failed login is never a 200 and always carries a truthy error message |
| `GatewayState.NormaliseReadingSpec` | api/server.js:195-200 | every field of the answer is settled. Each of `estado`, `nivel`, `valor` and a non-Timestamp `ts` is `null` exactly when it was missing, `undefined` or `null`, and is kept as it is otherwise. A Timestamp becomes its milliseconds. Normalising twice changes nothing |
| `GatewayState.SortDesc` | api/server.js:213 | `orderBy('ts', 'desc')`: a permutation of the documents in non-increasing `ts` |
| `GatewayState.Matching` | api/server.js:214-215 | each given bound filters inclusively; every document in the window is kept with all its copies, and no other |
| `GatewayState.LimitOf` | api/server.js:210 | an absent `limit` is 50 |
| `GatewayState.RangeSelection` | api/server.js:213-217 | the listed documents match the window and are sorted. There are `min(limit, matches)` of them, and every matching document left out is no newer than any listed one |
| `GatewayState.RangeQuery` | api/server.js:207-232 | 500 with the initialisation message, or with the error's message or the fallback, when the backend is not ready. Otherwise 200 with `count` equal to the number of items, and items whose `ts` are numbers in non-increasing order |
| `GatewayState.LastQuery` | api/server.js:180-204 | 500 on the two failure paths. 404 `Sin lecturas de state.` on an empty collection. 200 iff there is a document, and then the reading is that of a document whose `ts` is the maximum |
| `GatewayState.LastIsFirstOfRange` | api/server.js:185-228 | `/state/last` answers with the reading that the unbounded range listing with `limit=1` puts first |
| `GatewayState.RangeLimitPrefix` | api/server.js:213-217 | a smaller limit lists a prefix of what a larger one lists |
| `GatewayState.Failure500` | api/server.js:229-231 | the catch answers 500 with the error's message, or with the fallback when the message is empty |
| `EventStream.FrameRoundTrip` | api/server.js:251 | read by an idle client, each frame returns it to idle having dispatched that frame's event: a keep-alive nothing, a `data:` frame one `message` event carrying the JSON, an `event: error` frame one `error` event |
| `EventStream.StreamRoundTrip` | api/server.js:250-276 | a whole stream of frames whose JSON has no line break is read back as the sequence of their events |
| `EventStream.Tick` | api/server.js:250-252 | the interval writes one keep-alive comment while the response is open, and nothing once it has ended |
| `EventStream.OnSnapshot` | api/server.js:263-273 | while the listener is attached and the response open, a non-empty snapshot writes one `data` frame with the normalised newest reading; otherwise nothing is written |
| `EventStream.OnListenerError` | api/server.js:274-276 | while the listener is attached and the response open, a listener error writes one `event: error` frame with `{error: message}`; otherwise nothing |
| `EventStream.OnClose` | api/server.js:279-283 | close stops the pings and ends the response. The listener stays attached only when `unsub` throws |
| `EventStream.NothingAfterClose` | api/server.js:279-283 | once closed, no further step writes anything, and a detached listener never comes back |
| `EventStream.FramesOnlyGrow` | api/server.js:250-283 | the written frames of a connection only ever grow |
| `EventStream.ClientSeesEvents` | api/server.js:250-283 | with a one-line serialiser, whatever a connection has written is read by the client as exactly the events of its frames, in order |
| `Router.GetPath` | public/core/router.js:41-44 | the hash without its first `#`, trimmed, or `/splash` when that is empty; never empty |
| `Router.GetPathOfHash` | public/core/router.js:11-14 | the hash `go(p)` writes reads back as `p` for any route-like `p` |
| `Router.Resolve` | public/core/router.js:47-48 | an unknown path falls back to `/splash`, and a registered one is kept |
| `Router.Guard` | public/core/router.js:26-38 | a guest asking for `/dashboard` goes to `/login`; a signed-in user asking for `/home`, `/login` or `/register` goes to `/dashboard`; everything else is kept |
| `Router.GuardSettles` | public/core/router.js:26-38 | the guard keeps routes registered and is idempotent, and it only ever redirects a guest to `/login` and a signed-in user to `/dashboard` |
| `Router.Go` | public/core/router.js:11-14 | nothing is written when the hash already is `#path`; otherwise `#path` is written and differs from the old hash |
| `Router.Navigate` | public/core/router.js:46-65 | it redirects iff the guard changes the resolved path, writing the guarded route. It renders only a registered, permitted route that loads. A failed load writes `#/splash` |
| `Router.RedirectSettles` | public/core/router.js:50-54 | a redirect always writes the hash, and the `navigate` that the resulting `hashchange` triggers never redirects again |
| `Router.NavigateAsWritten` | public/core/router.js:47-64 | as written, with `routes[path]` looked up on a plain object: it agrees with `Navigate` except on inherited property names, where it ends in `go('/splash')` |
| `Router.PrototypeNameCounterexample` | public/core/router.js:47-48 | on `#constructor` the code as written fails and rewrites the hash, where the intended fallback renders the splash screen |
| `Sidebar.Display` | public/components/sidebar/sidebar.js:5-11 | the sidebar is shown (`''`) iff an `authToken` is in either area or an `idToken` is in `localStorage`, and hidden (`none`) otherwise |
| `Sidebar.ActiveLinks` | public/components/sidebar/sidebar.js:14-23 | only a link whose lower-cased `href` is `#/dashboard` or `#/home` can be active; a link without `href` never is |
| `Sidebar.AtMostOneActiveTarget` | public/components/sidebar/sidebar.js:18-20 | for any hash, all active links share one target |
| `Sidebar.OnStorage` | public/components/sidebar/sidebar.js:39-41 | only `authToken` and `idToken` events re-evaluate visibility; every other event keeps it |
| `Sidebar.OnStorageStaleness` | public/components/sidebar/sidebar.js:39-41 | after any `storage` event the sidebar is stale iff the event's key is filtered out and the session it shows changed; an event for a token key, or one that left the token keys as they were, leaves it current |
| `Sidebar.ClearLeavesSidebarStale` | public/components/sidebar/sidebar.js:39-41 | after `clear()` in another page (key `null`), a sidebar shown for an `idToken` stays visible with no session left |
| `Dashboard.StoredUser` | public/screens/dashboard/dashboard.js:15 | the local `user` when truthy, else the session one, else nothing |
| `Dashboard.DisplayNameSpec` | public/screens/dashboard/dashboard.js:14-25 | the name shown is never empty and never padded, and is `Usuario` when no user is stored, parsing fails or neither name is truthy |
| `Dashboard.FullNameShown` | public/screens/dashboard/dashboard.js:17-19 | two tidy names are shown as `first last` |
| `Dashboard.FirstNameShown` | public/screens/dashboard/dashboard.js:17-19 | a tidy first name alone is shown as itself |
| `Dashboard.RemoveAll` | public/screens/dashboard/dashboard.js:31-35 | a run of removals takes exactly the named keys out of each area |
| `Dashboard.Logout` | public/screens/dashboard/dashboard.js:30-39 | the hash always becomes `#/home`. When no removal throws, `authToken` and `user` are gone from both areas. Every other key keeps its value, and no key is added |
| `Dashboard.LogoutKeepsIdToken` | public/screens/dashboard/dashboard.js:31-35 | logout never touches `idToken` |
| `Session.RouterSessionShowsSidebar` | public/core/router.js:4-9 | whenever the router sees a session, the sidebar is shown |
| `Session.SessionsDiffer` | public/components/sidebar/sidebar.js:5-6 | sidebar and router disagree exactly when only an `idToken` is stored |
| `Session.IdTokenOnlyWitness` | public/core/router.js:26-30 | with only an `idToken`, the sidebar shows while the router sends `/dashboard` to `/login` |
| `Session.HomeRenderedForGuest` | public/screens/dashboard/dashboard.js:37 | the `#/home` logout lands on renders the home screen for a guest |
| `Session.LogoutOutcome` | public/screens/dashboard/dashboard.js:30-39 | after a full logout the router sees no session and renders `/home`, while the sidebar stays visible iff an `idToken` was in `localStorage` |
| `ServiceWorker.CacheNames` | public/serviceWorker.js:2-5 | the two cache names are `dev-suntec:app-shell:v1.0.6` and `dev-suntec:runtime:v1.0.6`, and they differ |
| `ServiceWorker.EndsWithDotIffExtension` | public/serviceWorker.js:63-65 | ending in `.e` is having `e` after the last dot |
| `ServiceWorker.IsStaticExtSpec` | public/serviceWorker.js:63-65 | the pattern matches iff the lower-cased text after the path's last dot is one of the sixteen listed extensions |
| `ServiceWorker.WoffMatches` | public/serviceWorker.js:64 | `woff2?` matches both fonts in any case |
| `ServiceWorker.PageNotStatic` | public/serviceWorker.js:63-65 | an `.html` path is never static, so its navigation is network-first |
| `ServiceWorker.MatchIn` | public/serviceWorker.js:106 | matching finds nothing iff no cache holds the URL, and otherwise the response stored in the first cache, in creation order, that holds it |
| `ServiceWorker.Open` | public/serviceWorker.js:70 | opening an existing cache changes nothing; a missing one is created empty at the end of the order |
| `ServiceWorker.Put` | public/serviceWorker.js:103 | storing sets that URL in that cache and adds no other entry; every other entry, every other cache and the cache order are kept |
| `ServiceWorker.Install` | public/serviceWorker.js:68-74 | `addAll` is all or nothing: every app-shell URL is stored when all fetches are ok and none is a partial (206) response, adding no other entry and keeping the cache's earlier entries for other URLs; otherwise only the opened cache remains. Other caches are kept, and the cache order is the one `caches.open` leaves |
| `ServiceWorker.KeepCurrent` | public/serviceWorker.js:79-87 | the kept names are exactly the non-obsolete ones, without duplicates, in their creation order |
| `ServiceWorker.Activate` | public/serviceWorker.js:77-90 | exactly the caches named `dev-suntec:…` other than the two current ones are deleted; the rest are unchanged and keep their creation order |
| `ServiceWorker.ActivateMatches` | public/serviceWorker.js:77-90 | after activation, `caches.match` for a URL that no deleted cache held answers as it did before |
| `ServiceWorker.ActivateKeeps` | public/serviceWorker.js:80-87 | both current caches and other applications' caches survive, and activating twice deletes nothing more |
| `ServiceWorker.StoreRuntime` | public/serviceWorker.js:102-103 | a GET response other than 206 is stored in the runtime cache when wanted, adding no other entry and keeping the other runtime entries; otherwise the cache is only opened. Other caches and the cache order are kept |
| `ServiceWorker.HandleFetch` | public/serviceWorker.js:93-128 | navigations go to the network and store the answer; offline they get the cached page or the offline page. Other requests are answered from the cache without the network, or fetched, with only `basic`/`default` answers stored; offline they fail |
| `ServiceWorker.CacheFirstServesStored` | public/serviceWorker.js:113-122 | a stored cache-first answer is what the next identical request gets, without the network |
| `ServiceWorker.OfflineNavigationAnswered` | public/serviceWorker.js:97-108 | after a successful install and activation, an offline navigation always gets an answer |

## Left out

- I/O, timers and concurrency. Each handler, callback and cursor run is one atomic step. The 25-second interval is a `Timer` step. Interleavings of transactions and of promise callbacks are not modelled.
- Floating point. Timestamps, `valor`, `nivel` and limits are integers, and `Number(...)` conversions, `NaN` and fractional values are not modelled.
- ReadingStore.AddState: the key generator's 2^53 ceiling (after which `add` fails) is not modelled; ids are unbounded.
- ReadingStore.Row: keeps the `day` index field as the civil date it is formatted from, or `None` for an Invalid Date, with `Day(row)` giving its text. The `device_day` index itself is never read by the code and is not modelled.
- ReadingStore.GetStatesByRange: requires the store invariant `Valid`, which every operation keeps; a `limit` of `null` or a non-number is not modelled.
- DayKey.YyyymmddRoundTrip: proved for four-digit years only; other years give keys that are not eight characters long.
- GatewayState.RangeQuery: takes `from`, `to` and `limit` as already-parsed numbers. For `from` and `to`, an absent or empty query string (the only falsy ones; `"0"` is truthy) is `None`. For `limit`, only an absent parameter is `None` (the default 50); an empty `?limit=` is `Some(0)`, since `Number("")` is 0. A non-numeric or negative value, which makes the query builder throw into the 500 path, is not modelled.
- GatewayState.SortDesc: Firestore's ordering between values of different types, sub-millisecond precision, and the order among equal `ts` are not modelled. Stored documents are assumed to carry a Timestamp `ts`. Normalisation also covers a missing or non-Timestamp `ts`.
- GatewayAccounts.Register: the server-assigned `createdAt` field is not modelled.
- Values that are objects or arrays (`Js.Value` has only primitives), and the text `String()` gives them, are not modelled.
- `GET /me` and the gateway's static-file serving are not part of this model.
- EventStream.Parser: the `id` and `retry` fields, the byte-order mark and reconnection are not modelled.
- EventStream: the stream route when the database is not ready after the headers are flushed (the catch's `res.status(401)` then fails) is not modelled. The error Node raises for a write after `end()` is not modelled; such a write simply reaches nobody.
- Strings.Lower: lower-cases ASCII letters only. The classifier's `/i` without `u` folds exactly that far. For the sidebar's targets `#/dashboard` and `#/home`, full `toLowerCase` decides every comparison the same way.
- Sidebar: the DOM (toggling the `active` class, the off-canvas close on click, the resize listener) is not modelled.
- Dashboard: a missing `#userName` element is not modelled.
- Router: the `hashchange` and `DOMContentLoaded` wiring, and the clearing of `#app`, are not modelled. `Loader` says only whether a screen loads and renders.
- ServiceWorker: `skipWaiting`, `clients.claim`, `Vary` matching and resolution of relative URLs against the worker's scope are not modelled; URLs are compared as strings. A failed install is reported as the storage it leaves; the browser discarding the worker is not modelled.

## Findings

| source | as written | input that shows it | evidently intended | confidence | as-written member | corrected member |
|---|---|---|---|---|---|---|
| public/core/router.js:47-48 | `if (!routes[path])` looks the path up on a plain object, so inherited `Object.prototype` names such as `constructor` pass as routes. The guard keeps them, `routes[path]()` yields no screen with `render`, and the catch rewrites the hash to `#/splash` | `#constructor` | an own-route check, so that every unknown path falls back to `/splash` and is rendered in place | medium, not executed | `Router.NavigateAsWritten`, `Router.PrototypeNameCounterexample` | `Router.Navigate`, `Router.RedirectSettles` |

=== FILE: dashboard.dfy ===
/**
 * The top bar of the dashboard screen (`public/screens/dashboard/dashboard.js`):
 * the name shown for the stored user, and the logout button.
 *
 * `JSON.parse` is an oracle `UserParser`: it yields the `firstName` and
 * `lastName` members of the parsed value (`undefined` when the value has no
 * such member or is not an object), or fails.
 */
module Dashboard {
  import opened Wrappers
  import opened Strings
  import Js
  import opened WebStorage

  const FallbackName: string := "Usuario"
  const LogoutHash: string := "#/home"

  /** `localStorage.getItem("user") || sessionStorage.getItem("user")`, `None` when falsy. */
  function StoredUser(b: Browser): (r: Option<string>)
    ensures Holds(b.local, UserKey) ==> r == Some(b.local[UserKey])
    ensures !Holds(b.local, UserKey) && Holds(b.session, UserKey) ==> r == Some(b.session[UserKey])
    ensures r.None? <==> !Holds(b.local, UserKey) && !Holds(b.session, UserKey)
    ensures r.Some? ==> r.value != ""
  {
    if Holds(b.local, UserKey) then Some(b.local[UserKey])
    else if Holds(b.session, UserKey) then Some(b.session[UserKey])
    else None
  }

  /** The two members the top bar reads from the parsed user. */
  datatype ParsedUser = ParsedUser(firstName: Js.Value, lastName: Js.Value)

  type UserParser = string -> Option<ParsedUser>

  /** `[u?.firstName, u?.lastName].filter(Boolean)`, each rendered by `String`. */
  function NameParts(u: ParsedUser): (r: seq<string>)
    ensures |r| <= 2
    ensures forall i :: 0 <= i < |r| ==> r[i] != ""
  {
    (if Js.Truthy(u.firstName) then [Js.ToString(u.firstName)] else [])
    + (if Js.Truthy(u.lastName) then [Js.ToString(u.lastName)] else [])
  }

  /** `parts.join(" ")`. */
  function Join(parts: seq<string>): string {
    if |parts| == 0 then ""
    else if |parts| == 1 then parts[0]
    else Join(parts[..|parts| - 1]) + " " + parts[|parts| - 1]
  }

  /** The text of `#userName`: the trimmed full name, or `Usuario`. */
  function DisplayName(b: Browser, parse: UserParser): string {
    match StoredUser(b)
    case None => FallbackName
    case Some(stored) =>
      match parse(stored)
      case None => FallbackName
      case Some(u) =>
        var full := Trim(Join(NameParts(u)));
        if full == "" then FallbackName else full
  }

  /** A string that `trim` leaves as it is. */
  predicate Tidy(s: string) {
    s != "" && !IsJsSpace(s[0]) && !IsJsSpace(s[|s| - 1])
  }

  lemma TidyTrim(s: string)
    requires Tidy(s)
    ensures Trim(s) == s
  {
  }

  /**
   * The name shown is never empty and never padded with white space. It is
   * `Usuario` when no user is stored, when parsing fails, or when neither
   * name member is truthy.
   */
  lemma DisplayNameSpec(b: Browser, parse: UserParser)
    ensures DisplayName(b, parse) != ""
    ensures Trim(DisplayName(b, parse)) == DisplayName(b, parse)
    ensures StoredUser(b).None? ==> DisplayName(b, parse) == FallbackName
    ensures StoredUser(b).Some? && parse(StoredUser(b).value).None? ==> DisplayName(b, parse) == FallbackName
    ensures (StoredUser(b).Some? && parse(StoredUser(b).value).Some? &&
             !Js.Truthy(parse(StoredUser(b).value).value.firstName) &&
             !Js.Truthy(parse(StoredUser(b).value).value.lastName)) ==> DisplayName(b, parse) == FallbackName
  {
    var r := DisplayName(b, parse);
    assert Tidy(FallbackName) by {
      assert FallbackName[0] == 'U' && FallbackName[|FallbackName| - 1] == 'o';
    }
    TidyTrim(FallbackName);
    if StoredUser(b).Some? && parse(StoredUser(b).value).Some? {
      var full := Trim(Join(NameParts(parse(StoredUser(b).value).value)));
      TrimIdempotent(Join(NameParts(parse(StoredUser(b).value).value)));
    }
  }

  /** A stored user with two tidy string names is shown as `first last`. */
  lemma FullNameShown(b: Browser, parse: UserParser, first: string, last: string)
    requires StoredUser(b).Some? && Tidy(first) && Tidy(last)
    requires parse(StoredUser(b).value) == Some(ParsedUser(Js.Str(first), Js.Str(last)))
    ensures DisplayName(b, parse) == first + " " + last
  {
    var parts := [first, last];
    assert NameParts(ParsedUser(Js.Str(first), Js.Str(last))) == parts;
    assert parts[..1] == [first];
    assert Join(parts) == first + " " + last;
    var both := first + " " + last;
    assert both[0] == first[0] && both[|both| - 1] == last[|last| - 1];
    TidyTrim(both);
  }

  /** A stored user with only a tidy first name is shown as that name. */
  lemma FirstNameShown(b: Browser, parse: UserParser, first: string)
    requires StoredUser(b).Some? && Tidy(first)
    requires parse(StoredUser(b).value) == Some(ParsedUser(Js.Str(first), Js.Undefined))
    ensures DisplayName(b, parse) == first
  {
    assert NameParts(ParsedUser(Js.Str(first), Js.Undefined)) == [first];
    TidyTrim(first);
  }

  // ---------------------------------------------------------------------------
  // Logout.
  // ---------------------------------------------------------------------------

  datatype Area = Local | Session

  datatype Removal = Removal(area: Area, key: string)

  /** The removals of the logout handler, in order. */
  const LogoutRemovals: seq<Removal> := [
    Removal(Local, AuthTokenKey), Removal(Session, AuthTokenKey),
    Removal(Local, UserKey), Removal(Session, UserKey)
  ]

  /** The keys a sequence of removals takes out of one area. */
  function RemovedFrom(rs: seq<Removal>, area: Area): set<string> {
    set i | 0 <= i < |rs| && rs[i].area == area :: rs[i].key
  }

  function RemoveOne(b: Browser, r: Removal): Browser {
    match r.area
    case Local => b.(local := RemoveItem(b.local, r.key))
    case Session => b.(session := RemoveItem(b.session, r.key))
  }

  /** Performs the removals in order. */
  function RemoveAll(b: Browser, rs: seq<Removal>): (r: Browser)
    ensures r.local == b.local - RemovedFrom(rs, Local)
    ensures r.session == b.session - RemovedFrom(rs, Session)
  {
    if |rs| == 0 then b
    else
      var init := rs[..|rs| - 1];
      var last := rs[|rs| - 1];
      assert RemovedFrom(rs, Local) ==
             RemovedFrom(init, Local) + (if last.area == Local then {last.key} else {});
      assert RemovedFrom(rs, Session) ==
             RemovedFrom(init, Session) + (if last.area == Session then {last.key} else {});
      RemoveOne(RemoveAll(b, init), last)
  }

  datatype LoggedOut = LoggedOut(browser: Browser, hash: string)

  /**
   * The logout click: the four removals until one throws (`completed` of
   * them succeed; four or more means none throws), then `#/home` regardless.
   */
  function Logout(b: Browser, completed: nat): (r: LoggedOut)
    ensures r.hash == LogoutHash
    ensures completed >= 4 ==>
              r.browser.local == b.local - {AuthTokenKey, UserKey} &&
              r.browser.session == b.session - {AuthTokenKey, UserKey}
    ensures r.browser.local.Keys <= b.local.Keys && r.browser.session.Keys <= b.session.Keys
    ensures forall k :: k in b.local && k != AuthTokenKey && k != UserKey ==>
              k in r.browser.local && r.browser.local[k] == b.local[k]
    ensures forall k :: k in b.session && k != AuthTokenKey && k != UserKey ==>
              k in r.browser.session && r.browser.session[k] == b.session[k]
  {
    var n := if completed < 4 then completed else 4;
    LogoutRemovedKeys(n);
    LoggedOut(RemoveAll(b, LogoutRemovals[..n]), LogoutHash)
  }

  /** The first `n` logout removals only take out `authToken` and `user`; all four take out both from both areas. */
  lemma LogoutRemovedKeys(n: nat)
    requires n <= 4
    ensures RemovedFrom(LogoutRemovals[..n], Local) <= {AuthTokenKey, UserKey}
    ensures RemovedFrom(LogoutRemovals[..n], Session) <= {AuthTokenKey, UserKey}
    ensures n == 4 ==> RemovedFrom(LogoutRemovals[..n], Local) == {AuthTokenKey, UserKey}
    ensures n == 4 ==> RemovedFrom(LogoutRemovals[..n], Session) == {AuthTokenKey, UserKey}
  {
    var done := LogoutRemovals[..n];
    if n == 4 {
      assert done == LogoutRemovals;
      assert done[0] == Removal(Local, AuthTokenKey) && done[2] == Removal(Local, UserKey);
      assert done[1] == Removal(Session, AuthTokenKey) && done[3] == Removal(Session, UserKey);
    }
  }

  /** Logout never touches `idToken`, in either storage area. */
  lemma LogoutKeepsIdToken(b: Browser, completed: nat)
    ensures IdTokenKey in b.local <==> IdTokenKey in Logout(b, completed).browser.local
    ensures Holds(b.local, IdTokenKey) <==> Holds(Logout(b, completed).browser.local, IdTokenKey)
  {
  }
}

=== FILE: day_key.dfy ===
/**
 * The `day` index key of a stored reading: `yyyymmdd` of `public/core/db.js`.
 *
 * The source converts a millisecond timestamp with `new Date(ms)` in the
 * host's local time zone; the model receives that conversion as a
 * `Calendar` so that the key itself is a pure function of the civil date.
 * Outside the range of time values (section 21.4.1.31, TimeClip, of
 * ECMA-262) the date is invalid, whatever the time zone.
 */
module DayKey {
  import opened Wrappers
  import opened Strings

  /** A local civil date as `getFullYear()`, `getMonth() + 1` and `getDate()` report it. */
  datatype CivilDate = CivilDate(year: int, month: int, day: int)

  type ValidDate = d: CivilDate | 1 <= d.month <= 12 && 1 <= d.day <= 31
    witness CivilDate(1970, 1, 1)

  /** The host's local-time conversion of a millisecond timestamp within the range of time values. */
  type Calendar = int -> ValidDate

  /** The largest magnitude of a time value: 100,000,000 days in milliseconds. */
  const MaxTimeValue: int := 8_640_000_000_000_000

  /** The key of an Invalid Date: every getter gives `NaN`, and `"NaN"` is already wider than two. */
  const InvalidDayKey: string := "NaNNaNNaN"

  /** `new Date(ms)` in local time: `None` is an Invalid Date. */
  function LocalDate(ms: int, calendar: Calendar): (r: Option<ValidDate>)
    ensures r.None? <==> ms < -MaxTimeValue || MaxTimeValue < ms
    ensures r.Some? ==> r.value == calendar(ms)
  {
    if -MaxTimeValue <= ms <= MaxTimeValue then Some(calendar(ms)) else None
  }

  /**
   * The year as `String(year)`, then the month and the day of the month, each
   * zero-padded to two digits.
   */
  function Yyyymmdd(d: ValidDate): (r: string)
    ensures |r| == |IntToString(d.year)| + 4
    ensures r[..|r| - 4] == IntToString(d.year)
    ensures AllDigits(r[|r| - 4..])
    ensures DigitsValue(r[|r| - 4..|r| - 2]) == d.month
    ensures DigitsValue(r[|r| - 2..]) == d.day
  {
    var r := IntToString(d.year) + Pad2(d.month) + Pad2(d.day);
    assert r[|r| - 4..|r| - 2] == Pad2(d.month);
    assert r[|r| - 2..] == Pad2(d.day);
    r
  }

  /** `yyyymmdd` of a date that may be invalid. */
  function DayKeyOf(date: Option<ValidDate>): string {
    match date
    case None => InvalidDayKey
    case Some(d) => Yyyymmdd(d)
  }

  /** No valid date is formatted as the Invalid Date key, whose last four characters are not digits. */
  lemma ValidKeyNotInvalid(d: ValidDate)
    ensures Yyyymmdd(d) != InvalidDayKey
  {
    var r := Yyyymmdd(d);
    if |r| == |InvalidDayKey| {
      assert r[|r| - 4..][0] == r[5];
      assert InvalidDayKey[5] == 'N';
      assert !IsDigit('N');
    }
  }

  /**
   * The day key of a timestamp is `"NaNNaNNaN"` exactly when the timestamp
   * lies outside the range of time values; inside it, the key is the
   * calendar's date.
   */
  lemma DayKeyOfTimestamp(ms: int, calendar: Calendar)
    ensures DayKeyOf(LocalDate(ms, calendar)) == InvalidDayKey <==> ms < -MaxTimeValue || MaxTimeValue < ms
    ensures -MaxTimeValue <= ms <= MaxTimeValue ==> DayKeyOf(LocalDate(ms, calendar)) == Yyyymmdd(calendar(ms))
  {
    ValidKeyNotInvalid(calendar(ms));
  }

  /** Reads an eight-character day key back into a civil date. */
  function ParseDayKey(s: string): (r: Option<CivilDate>)
    ensures r.Some? ==> |s| == 8 && AllDigits(s)
  {
    if |s| == 8 && AllDigits(s) then
      assert AllDigits(s[..4]) && AllDigits(s[4..6]) && AllDigits(s[6..]);
      Some(CivilDate(DigitsValue(s[..4]), DigitsValue(s[4..6]), DigitsValue(s[6..])))
    else
      None
  }

  lemma FourDigitYear(y: int)
    requires 1000 <= y <= 9999
    ensures |IntToString(y)| == 4
  {
    assert |NatDigits(y / 1000)| == 1;
    assert |NatDigits(y / 100)| == 2;
    assert |NatDigits(y / 10)| == 3;
  }

  /**
   * For four-digit years the key has eight characters and reads back to the
   * date it was built from.
   */
  lemma YyyymmddRoundTrip(d: ValidDate)
    requires 1000 <= d.year <= 9999
    ensures |Yyyymmdd(d)| == 8
    ensures ParseDayKey(Yyyymmdd(d)) == Some(d)
  {
    FourDigitYear(d.year);
    var r := Yyyymmdd(d);
    DigitsRoundTrip(d.year);
    assert r[..4] == IntToString(d.year);
    assert r[4..6] == r[|r| - 4..|r| - 2];
    assert r[6..] == r[|r| - 2..];
    assert AllDigits(r[..4]);
    assert AllDigits(r) by {
      forall i | 0 <= i < 8
        ensures IsDigit(r[i])
      {
        if i < 4 {
          assert r[i] == r[..4][i];
        } else {
          assert r[i] == r[4..][i - 4];
        }
      }
    }
  }
}

=== FILE: event_stream.dfy ===
/**
 * The server-sent event stream of `GET /devices/:deviceId/state/stream` in
 * `api/server.js`: the frames the server writes, the lifecycle of one
 * connection, and the client-side interpretation of the bytes it receives
 * (sections 9.2.5 and 9.2.6 of the WHATWG HTML Living Standard).
 *
 * `JSON.stringify` is an oracle `Serialiser`; the only fact used about it is
 * that its output never contains a raw line break.
 */
module EventStream {
  import opened Wrappers
  import opened Strings
  import Js
  import opened Http
  import GatewayState

  const KeepAliveFrame: string := ": keep-alive\n\n"

  /** `JSON.stringify` of a response body. */
  type Serialiser = Body -> string

  /** A frame the server writes. */
  datatype Frame =
    | KeepAlive
    | Data(json: string)
    | ErrorEvent(json: string)

  /** The text of one frame. */
  function FrameText(f: Frame): string {
    match f
    case KeepAlive => KeepAliveFrame
    case Data(json) => "data: " + json + "\n\n"
    case ErrorEvent(json) => "event: error\ndata: " + json + "\n\n"
  }

  /** The text of a sequence of frames, in writing order. */
  function Render(frames: seq<Frame>): (r: string)
    ensures |frames| == 0 ==> r == ""
  {
    if |frames| == 0 then "" else Render(frames[..|frames| - 1]) + FrameText(frames[|frames| - 1])
  }

  // ---------------------------------------------------------------------------
  // Client side: interpreting an event stream.
  // ---------------------------------------------------------------------------

  /** A dispatched `MessageEvent`: its type and its data. */
  datatype Event = Event(kind: string, data: string)

  /**
   * The parser's state: the current line, whether the last character was a
   * carriage return (so that a following line feed ends no further line), the
   * event type and data buffers, and the events dispatched so far.
   */
  datatype Parser = Parser(line: string, afterCR: bool, eventType: string, data: string, events: seq<Event>)

  /** Between events: no partial line and empty buffers. */
  function Idle(events: seq<Event>): Parser {
    Parser("", false, "", "", events)
  }

  predicate IsLineBreak(c: char) {
    c == '\n' || c == '\r'
  }

  predicate NoLineBreak(s: string) {
    forall i :: 0 <= i < |s| ==> !IsLineBreak(s[i])
  }

  /** Dispatches the buffered event on a blank line; an empty data buffer dispatches nothing. */
  function Dispatch(p: Parser): (r: Parser)
    ensures r.eventType == "" && r.data == "" && r.line == p.line && r.afterCR == p.afterCR
    ensures p.data == "" ==> r.events == p.events
    ensures p.data != "" ==> |r.events| == |p.events| + 1 && r.events[..|p.events|] == p.events
  {
    if p.data == "" then p.(eventType := "", data := "")
    else
      var data := if p.data[|p.data| - 1] == '\n' then p.data[..|p.data| - 1] else p.data;
      var kind := if p.eventType == "" then "message" else p.eventType;
      p.(events := p.events + [Event(kind, data)], eventType := "", data := "")
  }

  /** The fields that affect dispatched events; `id`, `retry` and unknown names are ignored. */
  function ProcessField(p: Parser, name: string, value: string): Parser {
    if name == "event" then p.(eventType := value)
    else if name == "data" then p.(data := p.data + value + "\n")
    else p
  }

  /** One complete line. */
  function ProcessLine(p: Parser, line: string): Parser {
    if line == "" then Dispatch(p)
    else if line[0] == ':' then p
    else
      match IndexOf(line, ':')
      case None => ProcessField(p, line, "")
      case Some(i) =>
        var value := line[i + 1..];
        ProcessField(p, line[..i], if |value| > 0 && value[0] == ' ' then value[1..] else value)
  }

  /** One character: CR, LF and CRLF each end a line. */
  function Feed(p: Parser, c: char): Parser {
    if p.afterCR && c == '\n' then p.(afterCR := false)
    else if IsLineBreak(c) then ProcessLine(p, p.line).(line := "", afterCR := c == '\r')
    else p.(line := p.line + [c], afterCR := false)
  }

  function FeedAll(p: Parser, s: string): Parser
    decreases |s|
  {
    if |s| == 0 then p else FeedAll(Feed(p, s[0]), s[1..])
  }

  /** Feeding two pieces one after the other is feeding their concatenation. */
  lemma {:induction false} FeedAllConcat(p: Parser, a: string, b: string)
    ensures FeedAll(p, a + b) == FeedAll(FeedAll(p, a), b)
    decreases |a|
  {
    if |a| > 0 {
      assert (a + b)[0] == a[0];
      assert (a + b)[1..] == a[1..] + b;
      FeedAllConcat(Feed(p, a[0]), a[1..], b);
    } else {
      assert a + b == b;
    }
  }

  /** Characters without a line break only extend the current line. */
  lemma {:induction false} FeedPlain(p: Parser, s: string)
    requires !p.afterCR && NoLineBreak(s)
    ensures FeedAll(p, s) == p.(line := p.line + s)
    decreases |s|
  {
    if |s| > 0 {
      assert !IsLineBreak(s[0]);
      FeedPlain(p.(line := p.line + [s[0]]), s[1..]);
      assert p.line + [s[0]] + s[1..] == p.line + s;
    } else {
      assert p.line + s == p.line;
    }
  }

  /** A line of text without line breaks, then a line feed, processes exactly that line. */
  lemma FeedLine(p: Parser, s: string)
    requires !p.afterCR && NoLineBreak(s)
    ensures FeedAll(p, s + "\n") == ProcessLine(p.(line := p.line + s), p.line + s).(line := "", afterCR := false)
  {
    FeedAllConcat(p, s, "\n");
    FeedPlain(p, s);
  }

  /** The first colon of `field: value` is the one after the field name. */
  lemma ColonAfterName(name: string, rest: string)
    requires ':' !in name
    ensures IndexOf(name + ":" + rest, ':') == Some(|name|)
  {
    var line := name + ":" + rest;
    assert line[|name|] == ':';
    assert ':' in line;
    var i := IndexOf(line, ':').value;
    forall k | 0 <= k < |name| ensures line[k] != ':' {
      assert line[k] == name[k];
    }
    forall k | 0 <= k < i ensures line[k] != ':' {
      assert line[..i][k] == line[k];
    }
  }

  /** A `name: value` line carries no line break when neither part does. */
  lemma FieldLineUnbroken(name: string, value: string)
    requires NoLineBreak(name) && NoLineBreak(value)
    ensures NoLineBreak(name + ": " + value)
  {
    var line := name + ": " + value;
    forall i | 0 <= i < |line| ensures !IsLineBreak(line[i]) {
      if i < |name| { assert line[i] == name[i]; }
      else if i < |name| + 2 { }
      else { assert line[i] == value[i - |name| - 2]; }
    }
  }

  /** Processing a `name: value` line stores `value` in the named field. */
  lemma FieldLineProcessed(p: Parser, name: string, value: string)
    requires ':' !in name && name != ""
    ensures ProcessLine(p, name + ": " + value) == ProcessField(p, name, value)
  {
    var line := name + ": " + value;
    assert line == name + ":" + (" " + value);
    ColonAfterName(name, " " + value);
    assert line[..|name|] == name;
    assert line[|name| + 1..] == " " + value;
    assert (" " + value)[1..] == value;
    assert line[0] == name[0];
  }

  /** A `name: value` line from the idle state stores `value` in the named field. */
  lemma FieldLine(p: Parser, name: string, value: string)
    requires p.line == "" && !p.afterCR
    requires ':' !in name && name != "" && NoLineBreak(name) && NoLineBreak(value)
    ensures FeedAll(p, name + ": " + value + "\n") == ProcessField(p, name, value)
  {
    var line := name + ": " + value;
    FieldLineUnbroken(name, value);
    FeedLine(p, line);
    assert p.line + line == line;
    FieldLineProcessed(p.(line := line), name, value);
  }

  /** A blank line from a state with no partial line dispatches the buffered event. */
  lemma BlankLine(p: Parser)
    requires p.line == "" && !p.afterCR
    ensures FeedAll(p, "\n") == Dispatch(p)
  {
    FeedLine(p, "");
  }

  /** The event a frame makes the client dispatch, if any. */
  function EventsOfFrame(f: Frame): seq<Event> {
    match f
    case KeepAlive => []
    case Data(json) => [Event("message", json)]
    case ErrorEvent(json) => [Event("error", json)]
  }

  function EventsOf(frames: seq<Frame>): seq<Event> {
    if |frames| == 0 then [] else EventsOf(frames[..|frames| - 1]) + EventsOfFrame(frames[|frames| - 1])
  }

  /** A frame whose JSON holds no raw line break. */
  predicate WellFormed(f: Frame) {
    f.KeepAlive? || NoLineBreak(f.json)
  }

  /**
   * Each frame, read from an idle client, returns the client to idle having
   * dispatched exactly that frame's event: a `message` event carrying the
   * JSON, an `error` event carrying the JSON, or nothing for a keep-alive.
   */
  lemma FrameRoundTrip(events: seq<Event>, f: Frame)
    requires WellFormed(f)
    ensures FeedAll(Idle(events), FrameText(f)) == Idle(events + EventsOfFrame(f))
  {
    match f
    case KeepAlive => KeepAliveRoundTrip(events);
    case Data(json) => DataRoundTrip(events, json);
    case ErrorEvent(json) => ErrorRoundTrip(events, json);
  }

  lemma KeepAliveText()
    ensures KeepAliveFrame == ": keep-alive" + "\n" + "\n"
    ensures NoLineBreak(": keep-alive") && (": keep-alive")[0] == ':'
  {
    assert ": keep-alive" == [':', ' ', 'k', 'e', 'e', 'p', '-', 'a', 'l', 'i', 'v', 'e'];
  }

  lemma KeepAliveRoundTrip(events: seq<Event>)
    ensures FeedAll(Idle(events), KeepAliveFrame) == Idle(events)
  {
    var p := Idle(events);
    var comment := ": keep-alive";
    KeepAliveText();
    FeedAllConcat(p, comment + "\n", "\n");
    FeedLine(p, comment);
    assert p.line + comment == comment;
    assert ProcessLine(p.(line := comment), comment) == p.(line := comment);
    assert FeedAll(p, comment + "\n") == p;
    BlankLine(p);
  }

  lemma DataRoundTrip(events: seq<Event>, json: string)
    requires NoLineBreak(json)
    ensures FeedAll(Idle(events), FrameText(Data(json))) == Idle(events + [Event("message", json)])
  {
    var p := Idle(events);
    var line := "data" + ": " + json + "\n";
    assert FrameText(Data(json)) == line + "\n";
    FeedAllConcat(p, line, "\n");
    FieldLine(p, "data", json);
    var q := p.(data := json + "\n");
    assert FeedAll(p, line) == q;
    BlankLine(q);
    assert (json + "\n")[..|json + "\n"| - 1] == json;
    assert Dispatch(q) == Idle(events + [Event("message", json)]);
  }

  lemma ErrorRoundTrip(events: seq<Event>, json: string)
    requires NoLineBreak(json)
    ensures FeedAll(Idle(events), FrameText(ErrorEvent(json))) == Idle(events + [Event("error", json)])
  {
    var p := Idle(events);
    var first := "event" + ": " + "error" + "\n";
    var line := "data" + ": " + json + "\n";
    assert FrameText(ErrorEvent(json)) == first + (line + "\n");
    FeedAllConcat(p, first, line + "\n");
    FieldLine(p, "event", "error");
    var q := p.(eventType := "error");
    assert FeedAll(p, first) == q;
    FeedAllConcat(q, line, "\n");
    FieldLine(q, "data", json);
    var u := q.(data := json + "\n");
    assert FeedAll(q, line) == u;
    BlankLine(u);
    assert (json + "\n")[..|json + "\n"| - 1] == json;
    assert Dispatch(u) == Idle(events + [Event("error", json)]);
  }

  /** A whole stream of well-formed frames is read back as the sequence of their events. */
  lemma {:induction false} StreamRoundTrip(frames: seq<Frame>)
    requires forall i :: 0 <= i < |frames| ==> WellFormed(frames[i])
    ensures FeedAll(Idle([]), Render(frames)) == Idle(EventsOf(frames))
  {
    if |frames| > 0 {
      var init := frames[..|frames| - 1];
      var last := frames[|frames| - 1];
      StreamRoundTrip(init);
      FeedAllConcat(Idle([]), Render(init), FrameText(last));
      FrameRoundTrip(EventsOf(init), last);
    }
  }

  // ---------------------------------------------------------------------------
  // Server side: one connection.
  // ---------------------------------------------------------------------------

  /**
   * An open connection: whether the response has ended, whether the
   * keep-alive interval is still set, whether the snapshot listener is still
   * subscribed, and the frames written so far.
   */
  datatype Connection = Connection(ended: bool, pinging: bool, subscribed: bool, frames: seq<Frame>)

  /** Right after the headers are flushed: the interval is set and the listener subscribed. */
  const Opened: Connection := Connection(false, true, true, [])

  /** The keep-alive interval fires: it writes a comment frame unless the response has ended. */
  function Tick(c: Connection): (r: Connection)
    ensures r.ended == c.ended && r.pinging == c.pinging && r.subscribed == c.subscribed
    ensures c.pinging && !c.ended ==> r.frames == c.frames + [KeepAlive]
    ensures !c.pinging || c.ended ==> r.frames == c.frames
  {
    if c.pinging && !c.ended then c.(frames := c.frames + [KeepAlive]) else c
  }

  /** The `data` payload of a snapshot's newest document. */
  function SnapshotFrame(json: Serialiser, d: GatewayState.DocData): Frame {
    Data(json(ReadingJson(GatewayState.NormaliseReading(d))))
  }

  /**
   * Whether a listener callback's write reaches the client: the listener
   * must still be attached, and a write after `res.end()` sends nothing.
   */
  predicate Delivers(c: Connection) {
    c.subscribed && !c.ended
  }

  /**
   * The snapshot listener (a query with `limit(1)`, so at most one document):
   * an empty snapshot writes nothing; otherwise one `data` frame.
   */
  function OnSnapshot(c: Connection, json: Serialiser, docs: seq<GatewayState.DocData>): (r: Connection)
    ensures r.ended == c.ended && r.pinging == c.pinging && r.subscribed == c.subscribed
    ensures !Delivers(c) || |docs| == 0 ==> r.frames == c.frames
    ensures Delivers(c) && |docs| > 0 ==> r.frames == c.frames + [SnapshotFrame(json, docs[0])]
  {
    if !Delivers(c) || |docs| == 0 then c
    else c.(frames := c.frames + [SnapshotFrame(json, docs[0])])
  }

  /** The listener's error callback: an `event: error` frame with `{error: err.message}`. */
  function OnListenerError(c: Connection, json: Serialiser, message: string): (r: Connection)
    ensures r.ended == c.ended && r.pinging == c.pinging && r.subscribed == c.subscribed
    ensures Delivers(c) ==> r.frames == c.frames + [ErrorEvent(json(ErrorJson(Js.Str(message))))]
    ensures !Delivers(c) ==> r.frames == c.frames
  {
    if Delivers(c) then c.(frames := c.frames + [ErrorEvent(json(ErrorJson(Js.Str(message))))]) else c
  }

  /**
   * The request's `close` handler: clears the interval, unsubscribes (an
   * exception from `unsub` is swallowed and leaves the listener attached), and
   * ends the response.
   */
  function OnClose(c: Connection, unsubscribeThrows: bool): (r: Connection)
    ensures r.ended && !r.pinging && r.frames == c.frames
    ensures r.subscribed <==> c.subscribed && unsubscribeThrows
  {
    Connection(true, false, c.subscribed && unsubscribeThrows, c.frames)
  }

  /** An event the connection reacts to. */
  datatype Step =
    | Timer
    | Snapshot(docs: seq<GatewayState.DocData>)
    | ListenerError(message: string)
    | Close(unsubscribeThrows: bool)

  function Apply(c: Connection, json: Serialiser, s: Step): Connection {
    match s
    case Timer => Tick(c)
    case Snapshot(docs) => OnSnapshot(c, json, docs)
    case ListenerError(message) => OnListenerError(c, json, message)
    case Close(t) => OnClose(c, t)
  }

  function Run(c: Connection, json: Serialiser, steps: seq<Step>): Connection
    decreases |steps|
  {
    if |steps| == 0 then c else Run(Apply(c, json, steps[0]), json, steps[1..])
  }

  /**
   * After a close nothing more reaches the client: no keep-alive, no
   * snapshot and no error frame, whether or not the unsubscribe succeeded;
   * and a detached listener is never attached again.
   */
  lemma {:induction false} NothingAfterClose(c: Connection, json: Serialiser, steps: seq<Step>)
    requires c.ended && !c.pinging
    ensures Run(c, json, steps).frames == c.frames
    ensures Run(c, json, steps).ended && !Run(c, json, steps).pinging
    ensures !c.subscribed ==> !Run(c, json, steps).subscribed
    decreases |steps|
  {
    if |steps| > 0 {
      NothingAfterClose(Apply(c, json, steps[0]), json, steps[1..]);
    }
  }

  /** Writing only appends: the frames of a connection only ever grow. */
  lemma {:induction false} FramesOnlyGrow(c: Connection, json: Serialiser, steps: seq<Step>)
    ensures c.frames <= Run(c, json, steps).frames
    decreases |steps|
  {
    if |steps| > 0 {
      var d := Apply(c, json, steps[0]);
      assert c.frames <= d.frames;
      FramesOnlyGrow(d, json, steps[1..]);
    }
  }

  /** The serialiser writes JSON on one line, as `JSON.stringify` without indentation does. */
  ghost predicate SingleLine(json: Serialiser) {
    forall b :: NoLineBreak(json(b))
  }

  /** Every frame a connection writes is well formed when the serialiser writes one line. */
  lemma {:induction false} RunWellFormed(c: Connection, json: Serialiser, steps: seq<Step>)
    requires SingleLine(json)
    requires forall i :: 0 <= i < |c.frames| ==> WellFormed(c.frames[i])
    ensures forall i :: 0 <= i < |Run(c, json, steps).frames| ==> WellFormed(Run(c, json, steps).frames[i])
    decreases |steps|
  {
    if |steps| > 0 {
      var d := Apply(c, json, steps[0]);
      assert forall i :: 0 <= i < |d.frames| ==> WellFormed(d.frames[i]) by {
        forall i | 0 <= i < |d.frames| ensures WellFormed(d.frames[i]) {
          if i >= |c.frames| {
            match steps[0]
            case Snapshot(docs) =>
              assert NoLineBreak(json(ReadingJson(GatewayState.NormaliseReading(docs[0]))));
            case ListenerError(m) =>
              assert NoLineBreak(json(ErrorJson(Js.Str(m))));
            case _ =>
          }
        }
      }
      RunWellFormed(d, json, steps[1..]);
    }
  }

  /**
   * What a client receives over a whole connection: exactly one `message`
   * event per non-empty snapshot and one `error` event per listener error,
   * in order; keep-alives dispatch nothing.
   */
  lemma ClientSeesEvents(json: Serialiser, steps: seq<Step>)
    requires SingleLine(json)
    ensures FeedAll(Idle([]), Render(Run(Opened, json, steps).frames)) ==
            Idle(EventsOf(Run(Opened, json, steps).frames))
  {
    RunWellFormed(Opened, json, steps);
    StreamRoundTrip(Run(Opened, json, steps).frames);
  }
}

=== FILE: gateway_accounts.dfy ===
/**
 * The account routes of `api/server.js`: `POST /auth/register` and
 * `POST /auth/login`. The identity provider (`createUser`, the profile write
 * and the password sign-in REST call) is an oracle; each handler also reports
 * the upstream calls it made, in order, so that "no upstream call" can be
 * stated.
 */
module GatewayAccounts {
  import opened Wrappers
  import opened Js
  import opened Http

  const MissingCredentialsMessage: string := "email y password son requeridos"
  const LoginFailedMessage: string := "Login failed"
  const ServerErrorMessage: string := "Server error"

  /** The JSON body of a register request; a missing field is `Undefined`. */
  datatype RegisterBody = RegisterBody(
    email: Value, password: Value, displayName: Value,
    nombre: Value, apellidoP: Value, apellidoM: Value, fechaNac: Value, telefono: Value)

  /** The arguments of `createUser`. */
  datatype NewUser = NewUser(email: Value, password: Value, displayName: Value)

  /** The `users/{uid}` document, without its server-assigned `createdAt`. */
  datatype Profile = Profile(
    email: Value, displayName: Value,
    nombre: Value, apellidoP: Value, apellidoM: Value, fechaNac: Value, telefono: Value)

  /** An upstream call a handler made. */
  datatype Upstream =
    | CreateUser(user: NewUser)
    | WriteProfile(uid: string, profile: Profile)
    | SignIn(email: Value, password: Value)

  datatype Handled = Handled(response: Response, calls: seq<Upstream>)

  /** `createUser`: the new user's uid, or the message of the error it throws. */
  type UserCreator = NewUser -> Result<string, string>

  /** The profile write: `None` on success, or the message of the error it throws. */
  type ProfileWriter = (string, Profile) -> Option<string>

  /** Both credentials are present and truthy. */
  predicate HasCredentials(email: Value, password: Value) {
    Truthy(email) && Truthy(password)
  }

  /** The destructuring default `displayName = ''`, which replaces only `undefined`. */
  function DisplayNameOf(body: RegisterBody): (r: Value)
    ensures body.displayName.Undefined? ==> r == Str("")
    ensures !body.displayName.Undefined? ==> r == body.displayName
  {
    if body.displayName.Undefined? then Str("") else body.displayName
  }

  /** The profile document: every optional field is `field || ''`. */
  function ProfileOf(body: RegisterBody): (r: Profile)
    ensures r.email == body.email && r.displayName == DisplayNameOf(body)
    ensures r.nombre == Or(body.nombre, Str(""))
    ensures r.apellidoP == Or(body.apellidoP, Str(""))
    ensures r.apellidoM == Or(body.apellidoM, Str(""))
    ensures r.fechaNac == Or(body.fechaNac, Str(""))
    ensures r.telefono == Or(body.telefono, Str(""))
  {
    Profile(body.email, DisplayNameOf(body),
            Or(body.nombre, Str("")), Or(body.apellidoP, Str("")), Or(body.apellidoM, Str("")),
            Or(body.fechaNac, Str("")), Or(body.telefono, Str("")))
  }

  /** `POST /auth/register`. */
  function Register(body: RegisterBody, create: UserCreator, write: ProfileWriter): (r: Handled)
    ensures !HasCredentials(body.email, body.password) ==>
              r == Handled(Response(400, Err(MissingCredentialsMessage)), [])
    ensures HasCredentials(body.email, body.password) ==>
              |r.calls| >= 1 && r.calls[0] == CreateUser(NewUser(body.email, body.password, DisplayNameOf(body)))
    ensures r.response.status == 200 <==>
              HasCredentials(body.email, body.password) &&
              create(NewUser(body.email, body.password, DisplayNameOf(body))).Success? &&
              write(create(NewUser(body.email, body.password, DisplayNameOf(body))).value, ProfileOf(body)).None?
    ensures r.response.status != 200 ==> r.response.status == 400
    ensures r.response.status == 200 ==>
              r.response.body == RegisterJson(create(NewUser(body.email, body.password, DisplayNameOf(body))).value, body.email)
    ensures HasCredentials(body.email, body.password) ==>
              var user := NewUser(body.email, body.password, DisplayNameOf(body));
              create(user).Failure? ==>
                r == Handled(Response(400, Err(create(user).error)), [CreateUser(user)])
    ensures HasCredentials(body.email, body.password) ==>
              var user := NewUser(body.email, body.password, DisplayNameOf(body));
              create(user).Success? && write(create(user).value, ProfileOf(body)).Some? ==>
                r == Handled(Response(400, Err(write(create(user).value, ProfileOf(body)).value)),
                             [CreateUser(user), WriteProfile(create(user).value, ProfileOf(body))])
  {
    if !HasCredentials(body.email, body.password) then
      Handled(Response(400, Err(MissingCredentialsMessage)), [])
    else
      var user := NewUser(body.email, body.password, DisplayNameOf(body));
      match create(user)
      case Failure(message) => Handled(Response(400, Err(message)), [CreateUser(user)])
      case Success(uid) =>
        var calls := [CreateUser(user), WriteProfile(uid, ProfileOf(body))];
        match write(uid, ProfileOf(body))
        case Some(message) => Handled(Response(400, Err(message)), calls)
        case None => Handled(Response(200, RegisterJson(uid, body.email)), calls)
  }

  /** A successful registration writes the profile of the uid it answers with, with every optional field defaulted. */
  lemma RegisterWritesProfile(body: RegisterBody, create: UserCreator, write: ProfileWriter)
    requires Register(body, create, write).response.status == 200
    ensures Register(body, create, write).calls ==
              [CreateUser(NewUser(body.email, body.password, DisplayNameOf(body))),
               WriteProfile(Register(body, create, write).response.body.newUid, ProfileOf(body))]
    ensures !Nullish(ProfileOf(body).nombre) && !Nullish(ProfileOf(body).apellidoP)
    ensures !Nullish(ProfileOf(body).apellidoM) && !Nullish(ProfileOf(body).fechaNac)
    ensures !Nullish(ProfileOf(body).telefono)
  {
  }

  /** The JSON the sign-in endpoint answers with; a missing member is `Undefined`. */
  datatype SignInData = SignInData(
    errorMessage: Value, idToken: Value, refreshToken: Value, localId: Value, expiresIn: Value)

  /**
   * The outcome of the sign-in `fetch` and its `r.json()`: a rejected promise
   * (network failure or a body that is not JSON), or the status with the data.
   */
  datatype SignInReply = Rejected | Reply(status: int, data: SignInData)

  type SignInService = (Value, Value) -> SignInReply

  /** `r.ok`: the status is in the range 200 to 299. */
  predicate Ok(status: int) {
    200 <= status <= 299
  }

  /** `POST /auth/login`. */
  function Login(email: Value, password: Value, signIn: SignInService): (r: Handled)
    ensures !HasCredentials(email, password) ==>
              r == Handled(Response(400, Err(MissingCredentialsMessage)), [])
    ensures HasCredentials(email, password) ==> r.calls == [SignIn(email, password)]
    ensures HasCredentials(email, password) && signIn(email, password).Rejected? ==>
              r.response == Response(500, Err(ServerErrorMessage))
    ensures HasCredentials(email, password) && signIn(email, password).Reply? &&
            !Ok(signIn(email, password).status) ==>
              r.response == Response(signIn(email, password).status,
                                     ErrorJson(Or(signIn(email, password).data.errorMessage, Str(LoginFailedMessage))))
    ensures r.response.body.LoginJson? <==>
              HasCredentials(email, password) && signIn(email, password).Reply? && Ok(signIn(email, password).status)
    ensures r.response.body.LoginJson? ==>
              var d := signIn(email, password).data;
              r.response == Response(200, LoginJson(d.idToken, d.refreshToken, d.localId, d.expiresIn))
  {
    if !HasCredentials(email, password) then
      Handled(Response(400, Err(MissingCredentialsMessage)), [])
    else
      var calls := [SignIn(email, password)];
      match signIn(email, password)
      case Rejected => Handled(Response(500, Err(ServerErrorMessage)), calls)
      case Reply(status, data) =>
        if !Ok(status) then
          Handled(Response(status, ErrorJson(Or(data.errorMessage, Str(LoginFailedMessage)))), calls)
        else
          Handled(Response(200, LoginJson(data.idToken, data.refreshToken, data.localId, data.expiresIn)), calls)
  }

  /**
   * A failed sign-in never answers 200 and always carries a truthy error:
   * the upstream message, or `Login failed` when there is none.
   */
  lemma LoginFailureReported(email: Value, password: Value, signIn: SignInService)
    requires !Login(email, password, signIn).response.body.LoginJson?
    ensures Login(email, password, signIn).response.status != 200
    ensures Login(email, password, signIn).response.body.ErrorJson?
    ensures Truthy(Login(email, password, signIn).response.body.error)
  {
  }
}

=== FILE: gateway_auth.dfy ===
/**
 * Credential extraction and the 401 decisions of `api/server.js`: the
 * `authGuard` middleware in front of the REST routes, and the inline check of
 * the event-stream route, which reads the two credential sources in the
 * opposite order.
 *
 * Token verification with the identity provider is an oracle `Verifier`.
 */
module GatewayAuth {
  import opened Wrappers
  import opened Strings
  import opened Http

  const BearerPrefix: string := "Bearer "
  const NoTokenMessage: string := "No token provided"
  const InvalidTokenMessage: string := "Invalid or expired token"
  const StreamDeniedMessage: string := "Unauthorized"

  /** The decoded claims of a verified ID token. */
  datatype Claims = Claims(uid: string, email: Option<string>)

  /** `verifyIdToken`: the claims of a valid token, `None` when verification throws. */
  type Verifier = string -> Option<Claims>

  /**
   * The credential sources of a request: the `Authorization` header and the
   * `token` query parameter (`None` when absent).
   */
  datatype Request = Request(authorization: Option<string>, queryToken: Option<string>)

  /**
   * The header token: the remainder after an exact, case-sensitive
   * `Bearer ` prefix, or `null` when the header does not start with it.
   */
  function HeaderToken(req: Request): (r: Option<string>)
    ensures r.Some? <==> StartsWith(req.authorization.GetOr(""), BearerPrefix)
    ensures r.Some? ==> req.authorization.GetOr("") == BearerPrefix + r.value
  {
    var header := req.authorization.GetOr("");
    if StartsWith(header, BearerPrefix) then Some(header[|BearerPrefix|..]) else None
  }

  /** A credential source that yields a usable (truthy, so non-empty) token. */
  predicate Usable(t: Option<string>) {
    t.Some? && t.value != ""
  }

  /** `headerToken || queryToken` in `authGuard`; `None` stands for every falsy outcome. */
  function GuardToken(req: Request): (r: Option<string>)
    ensures Usable(HeaderToken(req)) ==> r == HeaderToken(req)
    ensures !Usable(HeaderToken(req)) && Usable(req.queryToken) ==> r == req.queryToken
    ensures !Usable(HeaderToken(req)) && !Usable(req.queryToken) ==> r == None
  {
    if Usable(HeaderToken(req)) then HeaderToken(req)
    else if Usable(req.queryToken) then req.queryToken
    else None
  }

  /** What `authGuard` does with a request: run the route with the claims, or answer 401. */
  datatype GuardOutcome = Admit(claims: Claims) | Reject(response: Response)

  /** `authGuard(req, res, next)`. */
  function AuthGuard(req: Request, verify: Verifier): (r: GuardOutcome)
    ensures r.Reject? ==> r.response.status == 401
    ensures GuardToken(req).None? <==> r == Reject(Response(401, Err(NoTokenMessage)))
    ensures (GuardToken(req).Some? && verify(GuardToken(req).value).None?)
              <==> r == Reject(Response(401, Err(InvalidTokenMessage)))
    ensures r.Admit? <==> GuardToken(req).Some? && verify(GuardToken(req).value).Some?
    ensures r.Admit? ==> Some(r.claims) == verify(GuardToken(req).value)
  {
    match GuardToken(req)
    case None => Reject(Response(401, Err(NoTokenMessage)))
    case Some(token) =>
      match verify(token)
      case None => Reject(Response(401, Err(InvalidTokenMessage)))
      case Some(claims) => Admit(claims)
  }

  /**
   * The token `authGuard` verifies is always non-empty and comes from one of
   * the two sources; the header wins whenever it carries a token.
   */
  lemma GuardTokenSource(req: Request)
    ensures GuardToken(req).Some? ==> GuardToken(req).value != ""
    ensures GuardToken(req).Some? ==>
              GuardToken(req) == HeaderToken(req) || GuardToken(req) == req.queryToken
    ensures GuardToken(req).None? <==> !Usable(HeaderToken(req)) && !Usable(req.queryToken)
  {
  }

  /** The scheme name is matched case-sensitively: `bearer abc` yields no header token. */
  lemma LowerCaseSchemeIgnored()
    ensures HeaderToken(Request(Some("bearer abc"), None)) == None
    ensures GuardToken(Request(Some("bearer abc"), None)) == None
  {
    assert "bearer abc"[..7] != BearerPrefix by {
      assert "bearer abc"[0] != BearerPrefix[0];
    }
  }

  /** `String(req.query.token || headerToken || '')` in the stream route. */
  function StreamToken(req: Request): (r: string)
    ensures Usable(req.queryToken) ==> r == req.queryToken.value
    ensures !Usable(req.queryToken) && Usable(HeaderToken(req)) ==> r == HeaderToken(req).value
    ensures !Usable(req.queryToken) && !Usable(HeaderToken(req)) ==> r == ""
  {
    if Usable(req.queryToken) then req.queryToken.value
    else if Usable(HeaderToken(req)) then HeaderToken(req).value
    else ""
  }

  /** The stream route either opens the event stream or answers 401. */
  datatype StreamOutcome = Open(claims: Claims) | Deny(response: Response)

  /**
   * The stream route's credential check: an empty token ends the response
   * with 401 and no body; a failed verification answers 401
   * `{error: 'Unauthorized'}`; a token that verifies opens the stream with
   * its claims.
   */
  function StreamAuth(req: Request, verify: Verifier): (r: StreamOutcome)
    ensures r.Deny? ==> r.response.status == 401
    ensures StreamToken(req) == "" <==> r == Deny(Response(401, NoBody))
    ensures (StreamToken(req) != "" && verify(StreamToken(req)).None?)
              <==> r == Deny(Response(401, Err(StreamDeniedMessage)))
    ensures r.Open? ==> Some(r.claims) == verify(StreamToken(req))
    ensures r.Open? <==> StreamToken(req) != "" && verify(StreamToken(req)).Some?
    ensures StreamToken(req) != "" && verify(StreamToken(req)).Some? ==> r == Open(verify(StreamToken(req)).value)
  {
    var token := StreamToken(req);
    if token == "" then Deny(Response(401, NoBody))
    else
      match verify(token)
      case None => Deny(Response(401, Err(StreamDeniedMessage)))
      case Some(claims) => Open(claims)
  }

  /**
   * The two checks read the same sources in opposite orders: with two
   * different usable tokens, `authGuard` verifies the header's and the
   * stream route the query's. With one usable source they agree.
   */
  lemma PrecedenceReversed(req: Request)
    ensures Usable(HeaderToken(req)) && Usable(req.queryToken) ==>
              GuardToken(req) == HeaderToken(req) && StreamToken(req) == req.queryToken.value
    ensures Usable(HeaderToken(req)) != Usable(req.queryToken) ==>
              GuardToken(req) == Some(StreamToken(req))
    ensures GuardToken(req).None? <==> StreamToken(req) == ""
  {
  }
}

=== FILE: gateway_http.dfy ===
/**
 * The HTTP responses `api/server.js` sends, as status plus a JSON body shape,
 * and the Firestore field values the telemetry endpoints read.
 */
module Http {
  import Js

  /** A Firestore field as `doc.data()` yields it: missing, a `Timestamp`, or a plain value. */
  datatype Field = Absent | Stamp(millis: int) | Val(v: Js.Value)

  /** One reading as it crosses the wire: `{estado, nivel, valor, ts}`. */
  datatype WireReading = WireReading(estado: Field, nivel: Field, valor: Field, ts: Field)

  /** One element of the range listing: `{id, estado, nivel, valor, ts}`. */
  datatype WireItem = WireItem(id: string, reading: WireReading)

  datatype Body =
    | NoBody
    | ErrorJson(error: Js.Value)
    | RegisterJson(newUid: string, newEmail: Js.Value)
    | LoginJson(idToken: Js.Value, refreshToken: Js.Value, uid: Js.Value, expiresIn: Js.Value)
    | ReadingJson(reading: WireReading)
    | RangeJson(deviceId: string, count: nat, items: seq<WireItem>)

  datatype Response = Response(status: int, body: Body)

  /** `{error: message}` with a string message. */
  function Err(message: string): Body {
    ErrorJson(Js.Str(message))
  }
}

=== FILE: gateway_state.dfy ===
/**
 * The telemetry reads of `api/server.js`: the null-normalisation of a stored
 * reading, `GET /devices/:deviceId/state/last` and the range listing
 * `GET /devices/:deviceId/state`.
 *
 * Firestore is modelled as a map from device id to the documents of its
 * `state` sub-collection; each document stores `ts` as a `Timestamp`
 * (`TimedDoc`). A query ordered by `ts` descending is modelled by a
 * descending insertion sort over that list.
 */
module GatewayState {
  import opened Wrappers
  import opened Js
  import opened Http

  const NotInitialisedMessage: string :=
    "SunTec DB no inicializada. Revisa SUNTEC_SERVICE_ACCOUNT_JSON / SUNTEC_SERVICE_ACCOUNT / SUNTEC_PROJECT_ID."
  const NoReadingsMessage: string := "Sin lecturas de state."
  const LastErrorMessage: string := "Error leyendo último state"
  const RangeErrorMessage: string := "Error listando state"
  const DefaultRangeLimit: nat := 50

  /** `doc.data()` of a reading document. */
  datatype DocData = DocData(estado: Field, nivel: Field, valor: Field, ts: Field)

  datatype Doc = Doc(id: string, data: DocData)

  /** A document whose `ts` is a Firestore `Timestamp`. */
  type TimedDoc = d: Doc | d.data.ts.Stamp? witness Doc("", DocData(Absent, Absent, Absent, Stamp(0)))

  /** The Firestore backend as the handlers see it. */
  datatype Backend =
    | Uninitialised
    | Failing(message: string)
    | Ready(collections: map<string, seq<TimedDoc>>)

  /** `x ?? null` on a document field. */
  function OrNull(f: Field): (r: Field)
    ensures f.Absent? ==> r == Val(Null)
    ensures f.Val? ==> r == Val(Coalesce(f.v, Null))
    ensures f.Stamp? ==> r == f
  {
    match f
    case Absent => Val(Null)
    case Val(v) => Val(Coalesce(v, Null))
    case Stamp(_) => f
  }

  /** `x.ts?.toMillis ? x.ts.toMillis() : x.ts ?? null`. */
  function TsOut(f: Field): (r: Field)
    ensures f.Stamp? ==> r == Val(Num(f.millis))
    ensures !f.Stamp? ==> r == OrNull(f)
  {
    if f.Stamp? then Val(Num(f.millis)) else OrNull(f)
  }

  /** The `{estado, nivel, valor, ts}` payload built from a document. */
  function NormaliseReading(x: DocData): (r: WireReading)
    ensures r.estado == OrNull(x.estado) && r.nivel == OrNull(x.nivel) && r.valor == OrNull(x.valor)
    ensures r.ts == TsOut(x.ts)
  {
    WireReading(OrNull(x.estado), OrNull(x.nivel), OrNull(x.valor), TsOut(x.ts))
  }

  /** A payload field after normalisation: present, and never `undefined`. */
  predicate Settled(f: Field) {
    !f.Absent? && !(f.Val? && f.v.Undefined?)
  }

  /**
   * Normalisation: every field of the payload is present and not `undefined`;
   * a missing or `undefined` field becomes `null` and any other value is kept;
   * `ts` is never a `Timestamp` but its milliseconds; and normalising a payload
   * again changes nothing.
   */
  lemma NormaliseReadingSpec(x: DocData)
    ensures Settled(NormaliseReading(x).estado) && Settled(NormaliseReading(x).nivel)
    ensures Settled(NormaliseReading(x).valor) && Settled(NormaliseReading(x).ts)
    ensures !NormaliseReading(x).ts.Stamp?
    ensures NormaliseReading(x).estado == Val(Null) <==> x.estado.Absent? || x.estado == Val(Undefined) || x.estado == Val(Null)
    ensures NormaliseReading(x).nivel == Val(Null) <==> x.nivel.Absent? || x.nivel == Val(Undefined) || x.nivel == Val(Null)
    ensures NormaliseReading(x).valor == Val(Null) <==> x.valor.Absent? || x.valor == Val(Undefined) || x.valor == Val(Null)
    ensures !x.ts.Stamp? ==>
              (NormaliseReading(x).ts == Val(Null) <==> x.ts.Absent? || x.ts == Val(Undefined) || x.ts == Val(Null))
    ensures Settled(x.estado) ==> NormaliseReading(x).estado == x.estado
    ensures Settled(x.nivel) ==> NormaliseReading(x).nivel == x.nivel
    ensures Settled(x.valor) ==> NormaliseReading(x).valor == x.valor
    ensures Settled(x.ts) && !x.ts.Stamp? ==> NormaliseReading(x).ts == x.ts
    ensures x.ts.Stamp? ==> NormaliseReading(x).ts == Val(Num(x.ts.millis))
    ensures var y := NormaliseReading(x);
            NormaliseReading(DocData(y.estado, y.nivel, y.valor, y.ts)) == y
  {
  }

  function Ts(d: TimedDoc): int {
    d.data.ts.millis
  }

  predicate SortedDesc(s: seq<TimedDoc>) {
    forall i, j :: 0 <= i < j < |s| ==> Ts(s[j]) <= Ts(s[i])
  }

  /** Inserts `x` ahead of the first element whose `ts` is not greater. */
  function Insert(x: TimedDoc, s: seq<TimedDoc>): (r: seq<TimedDoc>)
    ensures |r| == |s| + 1
    ensures multiset(r) == multiset(s) + multiset{x}
    ensures r[0] == x || (|s| > 0 && r[0] == s[0])
    ensures SortedDesc(s) ==> SortedDesc(r)
  {
    if |s| == 0 then [x]
    else if Ts(s[0]) <= Ts(x) then [x] + s
    else
      var rest := Insert(x, s[1..]);
      assert s == [s[0]] + s[1..];
      assert SortedDesc(s) ==> SortedDesc([s[0]] + rest) by {
        if SortedDesc(s) {
          assert |s| > 1 ==> Ts(s[1]) <= Ts(s[0]);
          SortedCons(s[0], rest);
        }
      }
      [s[0]] + rest
  }

  /** Putting a document with the greatest `ts` first keeps the order. */
  lemma SortedCons(h: TimedDoc, s: seq<TimedDoc>)
    requires SortedDesc(s) && (|s| > 0 ==> Ts(s[0]) <= Ts(h))
    ensures SortedDesc([h] + s)
  {
    var r := [h] + s;
    forall i, j | 0 <= i < j < |r| ensures Ts(r[j]) <= Ts(r[i]) {
      assert r[j] == s[j - 1];
      if i > 0 { assert r[i] == s[i - 1]; }
    }
  }

  /** The documents ordered by `ts` descending. */
  function SortDesc(s: seq<TimedDoc>): (r: seq<TimedDoc>)
    ensures multiset(r) == multiset(s)
    ensures |r| == |s|
    ensures SortedDesc(r)
  {
    if |s| == 0 then []
    else
      assert s == [s[0]] + s[1..];
      Insert(s[0], SortDesc(s[1..]))
  }

  /** The `where` clauses: each bound applies only when it was given. */
  predicate InWindow(d: TimedDoc, from: Option<int>, to: Option<int>) {
    (from.None? || from.value <= Ts(d)) && (to.None? || Ts(d) <= to.value)
  }

  /** The documents that pass both `where` clauses, in collection order. */
  function Matching(docs: seq<TimedDoc>, from: Option<int>, to: Option<int>): (r: seq<TimedDoc>)
    ensures forall d :: multiset(r)[d] == if InWindow(d, from, to) then multiset(docs)[d] else 0
    ensures forall i :: 0 <= i < |r| ==> InWindow(r[i], from, to)
  {
    if |docs| == 0 then []
    else
      assert docs == [docs[0]] + docs[1..];
      var rest := Matching(docs[1..], from, to);
      if InWindow(docs[0], from, to) then [docs[0]] + rest else rest
  }

  /** The effective `limit`: `50` when the parameter is absent. */
  function LimitOf(limit: Option<nat>): (r: nat)
    ensures limit.None? ==> r == DefaultRangeLimit
    ensures limit.Some? ==> r == limit.value
  {
    limit.GetOr(DefaultRangeLimit)
  }

  /**
   * What the range query answers: matching documents only, at most `limit`
   * of them (all of them when fewer match), in non-increasing `ts` order, and
   * every matching document left out has a `ts` no greater than any returned one.
   */
  ghost predicate IsRangeSelection(docs: seq<TimedDoc>, from: Option<int>, to: Option<int>, limit: nat,
                             sel: seq<TimedDoc>)
  {
    && multiset(sel) <= multiset(Matching(docs, from, to))
    && (forall i :: 0 <= i < |sel| ==> InWindow(sel[i], from, to))
    && SortedDesc(sel)
    && |sel| == (if limit < |Matching(docs, from, to)| then limit else |Matching(docs, from, to)|)
    && (forall d, i :: multiset(sel)[d] < multiset(Matching(docs, from, to))[d] && 0 <= i < |sel|
          ==> Ts(d) <= Ts(sel[i]))
  }

  /** The query `orderBy('ts', 'desc')`, the optional `where` clauses, then `limit`. */
  function RangeSelection(docs: seq<TimedDoc>, from: Option<int>, to: Option<int>, limit: nat): (r: seq<TimedDoc>)
    ensures IsRangeSelection(docs, from, to, limit, r)
  {
    var sorted := SortDesc(Matching(docs, from, to));
    var k := if limit < |sorted| then limit else |sorted|;
    PrefixOfSorted(sorted, k);
    sorted[..k]
  }

  /**
   * A prefix of a descending list holds at most the list's copies of each
   * element, and an element with copies beyond the prefix is no later than
   * any element in it.
   */
  lemma PrefixOfSorted(s: seq<TimedDoc>, k: nat)
    requires SortedDesc(s) && k <= |s|
    ensures multiset(s[..k]) <= multiset(s)
    ensures forall d, i :: multiset(s[..k])[d] < multiset(s)[d] && 0 <= i < k ==> Ts(d) <= Ts(s[..k][i])
  {
    assert s == s[..k] + s[k..];
    forall d, i | multiset(s[..k])[d] < multiset(s)[d] && 0 <= i < k
      ensures Ts(d) <= Ts(s[..k][i])
    {
      assert multiset(s[k..])[d] > 0;
      var j :| k <= j < |s| && s[j] == d by {
        assert d in s[k..];
        var m :| 0 <= m < |s[k..]| && s[k..][m] == d;
        assert s[k + m] == d;
      }
      assert s[..k][i] == s[i];
    }
  }

  /** One listed element: `{id, estado, nivel, valor, ts}`. */
  function ItemOf(d: TimedDoc): WireItem {
    WireItem(d.id, NormaliseReading(d.data))
  }

  function ItemsOf(sel: seq<TimedDoc>): (r: seq<WireItem>)
    ensures |r| == |sel|
    ensures forall i :: 0 <= i < |sel| ==> r[i] == ItemOf(sel[i])
  {
    seq(|sel|, i requires 0 <= i < |sel| => ItemOf(sel[i]))
  }

  /** The documents of a device; a device without documents has an empty collection. */
  function Collection(collections: map<string, seq<TimedDoc>>, deviceId: string): seq<TimedDoc> {
    if deviceId in collections then collections[deviceId] else []
  }

  /** `e.message || fallback` for a failed read. */
  function Failure500(message: string, fallback: string): (r: Response)
    ensures r.status == 500
    ensures message != "" ==> r.body == Err(message)
    ensures message == "" ==> r.body == Err(fallback)
  {
    Response(500, ErrorJson(Or(Str(message), Str(fallback))))
  }

  /** The `ts` the client sees in a listed item, when it is a number. */
  function WireMillis(item: WireItem): Option<int> {
    if item.reading.ts.Val? && item.reading.ts.v.Num? then Some(item.reading.ts.v.n) else None
  }

  /** `GET /devices/:deviceId/state?from&to&limit`. */
  function RangeQuery(backend: Backend, deviceId: string, from: Option<int>, to: Option<int>,
                      limit: Option<nat>): (r: Response)
    ensures backend.Uninitialised? ==> r == Response(500, Err(NotInitialisedMessage))
    ensures backend.Failing? ==> r == Failure500(backend.message, RangeErrorMessage)
    ensures backend.Ready? <==> r.status == 200
    ensures backend.Ready? ==>
              r.body.RangeJson? && r.body.deviceId == deviceId && r.body.count == |r.body.items| &&
              r.body.items == ItemsOf(RangeSelection(Collection(backend.collections, deviceId), from, to, LimitOf(limit)))
    ensures backend.Ready? ==>
              (forall i :: 0 <= i < |r.body.items| ==> WireMillis(r.body.items[i]).Some?) &&
              (forall i, j :: 0 <= i < j < |r.body.items| ==>
                 WireMillis(r.body.items[j]).value <= WireMillis(r.body.items[i]).value)
  {
    match backend
    case Uninitialised => Response(500, Err(NotInitialisedMessage))
    case Failing(message) => Failure500(message, RangeErrorMessage)
    case Ready(collections) =>
      var sel := RangeSelection(Collection(collections, deviceId), from, to, LimitOf(limit));
      var items := ItemsOf(sel);
      ItemsOrdered(sel);
      Response(200, RangeJson(deviceId, |items|, items))
  }

  /** Listing a descending selection gives numeric `ts` values in non-increasing order. */
  lemma ItemsOrdered(sel: seq<TimedDoc>)
    requires SortedDesc(sel)
    ensures forall i :: 0 <= i < |ItemsOf(sel)| ==> WireMillis(ItemsOf(sel)[i]) == Some(Ts(sel[i]))
    ensures forall i, j :: 0 <= i < j < |ItemsOf(sel)| ==>
              WireMillis(ItemsOf(sel)[j]).value <= WireMillis(ItemsOf(sel)[i]).value
  {
    var items := ItemsOf(sel);
    forall i | 0 <= i < |items| ensures WireMillis(items[i]) == Some(Ts(sel[i])) {
      assert items[i] == ItemOf(sel[i]);
    }
  }

  /** `GET /devices/:deviceId/state/last`: the first document of the descending order. */
  function LastQuery(backend: Backend, deviceId: string): (r: Response)
    ensures backend.Uninitialised? ==> r == Response(500, Err(NotInitialisedMessage))
    ensures backend.Failing? ==> r == Failure500(backend.message, LastErrorMessage)
    ensures backend.Ready? && |Collection(backend.collections, deviceId)| == 0 ==>
              r == Response(404, Err(NoReadingsMessage))
    ensures r.status == 200 <==> backend.Ready? && |Collection(backend.collections, deviceId)| > 0
    ensures r.status == 200 ==>
              r.body.ReadingJson? &&
              exists d :: d in Collection(backend.collections, deviceId) && r.body.reading == NormaliseReading(d.data) &&
                (forall e :: e in Collection(backend.collections, deviceId) ==> Ts(e) <= Ts(d))
  {
    match backend
    case Uninitialised => Response(500, Err(NotInitialisedMessage))
    case Failing(message) => Failure500(message, LastErrorMessage)
    case Ready(collections) =>
      var docs := Collection(collections, deviceId);
      if |docs| == 0 then Response(404, Err(NoReadingsMessage))
      else
        var sorted := SortDesc(docs);
        var d := sorted[0];
        assert d in multiset(docs);
        assert forall e :: e in docs ==> Ts(e) <= Ts(d) by {
          forall e | e in docs ensures Ts(e) <= Ts(d) {
            assert e in multiset(sorted);
            var j :| 0 <= j < |sorted| && sorted[j] == e;
          }
        }
        Response(200, ReadingJson(NormaliseReading(d.data)))
  }

  /**
   * `/state/last` answers with the reading the range listing puts first when
   * asked without bounds for one item.
   */
  lemma {:induction false} LastIsFirstOfRange(backend: Backend, deviceId: string)
    requires backend.Ready? && |Collection(backend.collections, deviceId)| > 0
    ensures |RangeQuery(backend, deviceId, None, None, Some(1)).body.items| == 1
    ensures LastQuery(backend, deviceId).body.reading ==
            RangeQuery(backend, deviceId, None, None, Some(1)).body.items[0].reading
  {
    var docs := Collection(backend.collections, deviceId);
    MatchingAll(docs);
  }

  /** One step of `Matching`: the first document is kept exactly when it lies in the window. */
  lemma MatchingCons(docs: seq<TimedDoc>, from: Option<int>, to: Option<int>)
    requires |docs| > 0
    ensures Matching(docs, from, to) ==
              if InWindow(docs[0], from, to) then [docs[0]] + Matching(docs[1..], from, to) else Matching(docs[1..], from, to)
  {
  }

  /** Without bounds every document matches, in collection order. */
  lemma {:induction false} MatchingAll(docs: seq<TimedDoc>)
    ensures Matching(docs, None, None) == docs
  {
    if |docs| > 0 {
      MatchingCons(docs, None, None);
      assert InWindow(docs[0], None, None);
      MatchingAll(docs[1..]);
      assert docs == [docs[0]] + docs[1..];
    }
  }

  /** Widening the limit only extends the listing: a smaller page is a prefix of a larger one. */
  lemma RangeLimitPrefix(docs: seq<TimedDoc>, from: Option<int>, to: Option<int>, small: nat, large: nat)
    requires small <= large
    ensures RangeSelection(docs, from, to, small) <= RangeSelection(docs, from, to, large)
  {
  }
}

=== FILE: js.dfy ===
/**
 * The slice of JavaScript values the source handles: `undefined`, `null`,
 * booleans, integral numbers and strings, with the language's truthiness and
 * the nullish-coalescing operator `??`.
 */
module Js {
  import opened Strings

  datatype Value = Undefined | Null | Bool(b: bool) | Num(n: int) | Str(s: string)

  /** `!!v`: `false`, `0`, `""`, `null` and `undefined` are falsy. */
  predicate Truthy(v: Value) {
    match v
    case Undefined => false
    case Null => false
    case Bool(b) => b
    case Num(n) => n != 0
    case Str(s) => s != ""
  }

  predicate Nullish(v: Value) {
    v.Undefined? || v.Null?
  }

  /** `v ?? fallback`: replaces only `null` and `undefined`. */
  function Coalesce(v: Value, fallback: Value): (r: Value)
    ensures Nullish(v) ==> r == fallback
    ensures !Nullish(v) ==> r == v
  {
    if Nullish(v) then fallback else v
  }

  /** `a || b`: the first operand when it is truthy, otherwise the second. */
  function Or(a: Value, b: Value): (r: Value)
    ensures Truthy(a) ==> r == a
    ensures !Truthy(a) ==> r == b
  {
    if Truthy(a) then a else b
  }

  /** `String(v)` for the values above. */
  function ToString(v: Value): string {
    match v
    case Undefined => "undefined"
    case Null => "null"
    case Bool(b) => if b then "true" else "false"
    case Num(n) => IntToString(n)
    case Str(s) => s
  }
}

=== FILE: reading_store.dfy ===
/**
 * The client-side reading store of `public/core/db.js`: an IndexedDB object
 * store `state` of readings under an auto-increment key `id`, read through the
 * compound index `device_ts` = (deviceId, ts), and a separate `kv` store.
 *
 * Each exported operation is one atomic transition of an immutable `Store`.
 */
module ReadingStore {
  import opened Wrappers
  import opened DayKey
  import Js

  /** `Number.MAX_SAFE_INTEGER`, the upper bound `getLastState` scans to. */
  const MaxSafeInteger: int := 9007199254740991

  /** The default page size of `getStatesByRange`. */
  const DefaultRangeLimit: int := 1000

  /** A reading as callers pass it: `valor` and `nivel` may be `null`/`undefined` (`None`). */
  datatype Reading = Reading(deviceId: string, ts: int, valor: Option<int>, nivel: Option<int>, estado: Js.Value)

  /**
   * A stored row; `id` is the key the store's key generator assigned. The
   * `day` index field is kept as the local civil date it is formatted from
   * (`None` for an Invalid Date); `Day` gives its text.
   */
  datatype Row = Row(id: nat, deviceId: string, ts: int, date: Option<ValidDate>, valor: int, nivel: int, estado: Js.Value)

  /** The `day` field of a stored row, as `yyyymmdd` writes it. */
  function Day(row: Row): string {
    DayKeyOf(row.date)
  }

  /** The database: rows by id, the key generator's next id, and the `kv` store. */
  datatype Store = Store(rows: map<nat, Row>, nextId: nat, kv: map<string, Js.Value>)

  /** Every row sits under its own id, and every id was handed out by the key generator. */
  predicate Valid(s: Store) {
    && s.nextId >= 1
    && forall k :: k in s.rows ==> s.rows[k].id == k && k < s.nextId
  }

  /** A freshly created database: IndexedDB key generators start at 1. */
  const Empty: Store := Store(map[], 1, map[])

  /* ================= KV ================= */

  /** `kvSet(key, value)`: `put` of `{key, value}`, replacing any earlier value. */
  function KvSet(s: Store, key: string, value: Js.Value): (r: Store)
    ensures r.rows == s.rows && r.nextId == s.nextId
    ensures r.kv.Keys == s.kv.Keys + {key}
    ensures key in r.kv && r.kv[key] == value
    ensures forall k :: k in s.kv && k != key ==> r.kv[k] == s.kv[k]
  {
    s.(kv := s.kv[key := value])
  }

  /** `kvGet(key)`: the stored value, or `undefined` when there is no record. */
  function KvGet(s: Store, key: string): (r: Js.Value)
    ensures key !in s.kv ==> r == Js.Undefined
    ensures key in s.kv ==> r == s.kv[key]
  {
    if key in s.kv then s.kv[key] else Js.Undefined
  }

  /** `kvDel(key)`: removes the record, if any. */
  function KvDel(s: Store, key: string): (r: Store)
    ensures r.rows == s.rows && r.nextId == s.nextId
    ensures r.kv.Keys == s.kv.Keys - {key}
    ensures forall k :: k in r.kv ==> r.kv[k] == s.kv[k]
  {
    s.(kv := s.kv - {key})
  }

  /** `kvGet` after `kvSet` returns the value set, whatever was stored before. */
  lemma KvGetAfterSet(s: Store, key: string, value: Js.Value, other: string)
    ensures KvGet(KvSet(s, key, value), key) == value
    ensures other != key ==> KvGet(KvSet(s, key, value), other) == KvGet(s, other)
  {
  }

  /** A second `kvSet` on the same key overwrites the first. */
  lemma KvSetOverwrites(s: Store, key: string, v1: Js.Value, v2: Js.Value)
    ensures KvSet(KvSet(s, key, v1), key, v2) == KvSet(s, key, v2)
  {
  }

  /** `kvGet` after `kvDel` returns `undefined`; other keys keep their values. */
  lemma KvGetAfterDel(s: Store, key: string, other: string)
    ensures KvGet(KvDel(s, key), key) == Js.Undefined
    ensures other != key ==> KvGet(KvDel(s, key), other) == KvGet(s, other)
  {
  }

  /* ================= State ================= */

  /**
   * The row `addState` builds: `ts` as given, `day` from the local calendar
   * date of `ts` (an Invalid Date beyond the range of time values), `valor`
   * and `nivel` defaulted to 0 when missing, `estado` copied unchanged.
   */
  function NormaliseRow(rec: Reading, id: nat, calendar: Calendar): (row: Row)
    ensures row.id == id && row.deviceId == rec.deviceId && row.ts == rec.ts && row.estado == rec.estado
    ensures row.date.None? <==> rec.ts < -MaxTimeValue || MaxTimeValue < rec.ts
    ensures row.date.Some? ==> row.date.value == calendar(rec.ts)
    ensures rec.valor.None? ==> row.valor == 0
    ensures rec.valor.Some? ==> row.valor == rec.valor.value
    ensures rec.nivel.None? ==> row.nivel == 0
    ensures rec.nivel.Some? ==> row.nivel == rec.nivel.value
  {
    Row(id, rec.deviceId, rec.ts, LocalDate(rec.ts, calendar), rec.valor.GetOr(0), rec.nivel.GetOr(0), rec.estado)
  }

  /** The store after an `add`, and the key the add was given. */
  datatype Added = Added(store: Store, id: nat)

  /**
   * `addState(rec)`: inserts one row under the next auto-increment id. No
   * existing row is replaced or removed, and the `kv` store is untouched.
   */
  function AddState(s: Store, rec: Reading, calendar: Calendar): (r: Added)
    requires Valid(s)
    ensures Valid(r.store)
    ensures r.id !in s.rows
    ensures r.store.rows.Keys == s.rows.Keys + {r.id}
    ensures forall k :: k in s.rows ==> r.store.rows[k] == s.rows[k]
    ensures r.store.rows[r.id] == NormaliseRow(rec, r.id, calendar)
    ensures r.store.nextId == s.nextId + 1 && r.store.kv == s.kv
  {
    var id := s.nextId;
    Added(Store(s.rows[id := NormaliseRow(rec, id, calendar)], id + 1, s.kv), id)
  }

  /**
   * Adding the same reading twice keeps both copies: the store does not
   * deduplicate on (deviceId, ts).
   */
  lemma AddTwiceKeepsBoth(s: Store, rec: Reading, calendar: Calendar)
    requires Valid(s)
    ensures var a := AddState(s, rec, calendar);
            var b := AddState(a.store, rec, calendar);
            && a.id != b.id
            && |b.store.rows| == |s.rows| + 2
            && b.store.rows[a.id].ts == b.store.rows[b.id].ts == rec.ts
            && b.store.rows[a.id].deviceId == b.store.rows[b.id].deviceId == rec.deviceId
  {
    var a := AddState(s, rec, calendar);
    var b := AddState(a.store, rec, calendar);
    assert |a.store.rows.Keys| == |s.rows.Keys| + 1;
    assert |b.store.rows.Keys| == |a.store.rows.Keys| + 1;
  }

  /**
   * `addStatesBulk(rows)`: nothing for an empty list; otherwise one row per
   * element, under consecutive ids in input order, normalised as by
   * `addState`. Existing rows and the `kv` store are untouched.
   */
  method AddStatesBulk(s: Store, recs: seq<Reading>, calendar: Calendar) returns (r: Store)
    requires Valid(s)
    ensures Valid(r)
    ensures |recs| == 0 ==> r == s
    ensures r.nextId == s.nextId + |recs| && r.kv == s.kv
    ensures forall k :: k in r.rows <==> k in s.rows || s.nextId <= k < s.nextId + |recs|
    ensures forall k :: k in s.rows ==> r.rows[k] == s.rows[k]
    ensures forall k :: k in r.rows && k !in s.rows ==>
              s.nextId <= k < s.nextId + |recs| && r.rows[k] == NormaliseRow(recs[k - s.nextId], k, calendar)
  {
    if |recs| == 0 {
      return s;
    }
    r := s;
    var i := 0;
    while i < |recs|
      invariant 0 <= i <= |recs|
      invariant Valid(r) && r.nextId == s.nextId + i && r.kv == s.kv
      invariant forall k :: k in r.rows <==> k in s.rows || s.nextId <= k < s.nextId + i
      invariant forall k :: k in s.rows ==> r.rows[k] == s.rows[k]
      invariant forall k :: k in r.rows && k !in s.rows ==>
                  s.nextId <= k < s.nextId + i && r.rows[k] == NormaliseRow(recs[k - s.nextId], k, calendar)
    {
      var a := AddState(r, recs[i], calendar);
      forall k | k in a.store.rows && k !in s.rows
        ensures s.nextId <= k < s.nextId + i + 1 && a.store.rows[k] == NormaliseRow(recs[k - s.nextId], k, calendar)
      {
        if k != a.id {
          assert k in r.rows;
        }
      }
      r := a.store;
      i := i + 1;
    }
  }

  /**
   * A store whose keys are the old keys plus the next `n` ids (as after
   * `AddStatesBulk`) holds exactly `n` more rows.
   */
  lemma BulkRowCount(s: Store, r: Store, n: nat)
    requires Valid(s)
    requires forall k :: k in r.rows <==> k in s.rows || s.nextId <= k < s.nextId + n
    ensures |r.rows| == |s.rows| + n
  {
    FreshBlockCount(s.rows.Keys, r.rows.Keys, s.nextId, n);
  }

  /** Adding `n` fresh keys above every existing key grows the key set by exactly `n`. */
  lemma {:induction false} FreshBlockCount(before: set<nat>, after: set<nat>, first: nat, n: nat)
    requires forall k :: k in before ==> k < first
    requires forall k :: k in after <==> k in before || first <= k < first + n
    ensures |after| == |before| + n
  {
    if n == 0 {
      assert after == before;
    } else {
      var smaller := after - {first + n - 1};
      FreshBlockCount(before, smaller, first, n - 1);
    }
  }

  /* ---------------- reads through the device_ts index ---------------- */

  /** `a` comes before `b` in the `device_ts` index: by ts, then by primary key. */
  predicate Before(a: Row, b: Row) {
    a.ts < b.ts || (a.ts == b.ts && a.id < b.id)
  }

  /** `getLastState` scans the key range [deviceId, -1] .. [deviceId, MAX_SAFE_INTEGER]. */
  predicate LastScanned(row: Row, deviceId: string) {
    row.deviceId == deviceId && -1 <= row.ts <= MaxSafeInteger
  }

  /**
   * What `getLastState(deviceId)` resolves to: the first entry of a reverse
   * cursor over the scanned range (the largest ts, ties to the largest id),
   * or `undefined` when the range is empty.
   */
  predicate IsLastState(s: Store, deviceId: string, r: Option<Row>) {
    match r
    case None => forall k :: k in s.rows ==> !LastScanned(s.rows[k], deviceId)
    case Some(row) =>
      && row.id in s.rows && s.rows[row.id] == row && LastScanned(row, deviceId)
      && forall k :: k in s.rows && k != row.id && LastScanned(s.rows[k], deviceId) ==> Before(s.rows[k], row)
  }

  /** `getLastState(deviceId)`. */
  method GetLastState(s: Store, deviceId: string) returns (r: Option<Row>)
    requires Valid(s)
    ensures IsLastState(s, deviceId, r)
  {
    r := None;
    var todo := s.rows.Keys;
    while todo != {}
      invariant todo <= s.rows.Keys
      invariant r.Some? ==> r.value.id in s.rows && s.rows[r.value.id] == r.value && LastScanned(r.value, deviceId)
      invariant r.Some? ==> r.value.id !in todo
      invariant forall k :: k in s.rows && k !in todo && LastScanned(s.rows[k], deviceId) ==>
        r.Some? && (k == r.value.id || Before(s.rows[k], r.value))
      decreases |todo|
    {
      var k :| k in todo;
      var row := s.rows[k];
      if LastScanned(row, deviceId) && (r.None? || Before(r.value, row)) {
        r := Some(row);
      }
      todo := todo - {k};
    }
  }

  /** The answer of `getLastState` is determined by the store. */
  lemma LastStateUnique(s: Store, deviceId: string, a: Option<Row>, b: Option<Row>)
    requires Valid(s) && IsLastState(s, deviceId, a) && IsLastState(s, deviceId, b)
    ensures a == b
  {
    if a.Some? && b.Some? {
      BeforeAsymmetric(a.value, b.value);
    }
  }

  /**
   * After adding a reading whose ts is in range and at least every scanned
   * ts of its device, `getLastState` returns the new row.
   */
  lemma AddThenLast(s: Store, rec: Reading, calendar: Calendar)
    requires Valid(s)
    requires -1 <= rec.ts <= MaxSafeInteger
    requires forall k :: k in s.rows && LastScanned(s.rows[k], rec.deviceId) ==> s.rows[k].ts <= rec.ts
    ensures var a := AddState(s, rec, calendar);
            IsLastState(a.store, rec.deviceId, Some(a.store.rows[a.id]))
  {
  }

  /** `limit` as `getStatesByRange` uses it: 1000 when omitted, and no row at all when not positive. */
  function PageSize(limit: Option<int>): (n: nat)
    ensures limit.None? ==> n == DefaultRangeLimit
    ensures limit.Some? ==> n == if limit.value < 0 then 0 else limit.value
  {
    var l := limit.GetOr(DefaultRangeLimit);
    if l < 0 then 0 else l
  }

  predicate InRange(row: Row, deviceId: string, fromMs: int, toMs: int) {
    row.deviceId == deviceId && fromMs <= row.ts <= toMs
  }

  /** The ids of every row of `deviceId` with `fromMs <= ts <= toMs`. */
  function Matches(s: Store, deviceId: string, fromMs: int, toMs: int): set<nat> {
    set k | k in s.rows && InRange(s.rows[k], deviceId, fromMs, toMs)
  }

  /**
   * `page` is what a forward cursor over [deviceId, fromMs] .. [deviceId, toMs]
   * collects before it stops at `size` rows: stored matching rows, strictly
   * ascending by (ts, id), as many as `size` allows, and smaller than every
   * matching row it leaves out.
   */
  predicate IsRangePage(s: Store, deviceId: string, fromMs: int, toMs: int, size: nat, page: seq<Row>) {
    && (forall i :: 0 <= i < |page| ==>
          page[i].id in s.rows && s.rows[page[i].id] == page[i] && InRange(page[i], deviceId, fromMs, toMs))
    && (forall i, j :: 0 <= i < j < |page| ==> Before(page[i], page[j]))
    && |page| == (if size < |Matches(s, deviceId, fromMs, toMs)| then size else |Matches(s, deviceId, fromMs, toMs)|)
    && (forall k :: k in Matches(s, deviceId, fromMs, toMs) && s.rows[k] !in page ==>
          forall i :: 0 <= i < |page| ==> Before(page[i], s.rows[k]))
  }

  /** `IDBKeyRange.bound` throws a `DataError` when the lower key is above the upper one. */
  datatype RangeError = DataError

  /** The matching id of `pool` that comes first in the index. */
  method FirstInIndex(s: Store, pool: set<nat>) returns (m: nat)
    requires Valid(s) && pool != {} && pool <= s.rows.Keys
    ensures m in pool
    ensures forall k :: k in pool && k != m ==> Before(s.rows[m], s.rows[k])
  {
    m :| m in pool;
    var todo := pool - {m};
    while todo != {}
      invariant todo <= pool && m in pool && m !in todo
      invariant forall k :: k in pool && k !in todo && k != m ==> Before(s.rows[m], s.rows[k])
      decreases |todo|
    {
      var k :| k in todo;
      if Before(s.rows[k], s.rows[m]) {
        m := k;
      }
      todo := todo - {k};
    }
  }

  /** `getStatesByRange(deviceId, fromMs, toMs, limit)`. */
  method GetStatesByRange(s: Store, deviceId: string, fromMs: int, toMs: int, limit: Option<int>)
    returns (r: Result<seq<Row>, RangeError>)
    requires Valid(s)
    ensures r.Failure? <==> fromMs > toMs
    ensures r.Success? ==> IsRangePage(s, deviceId, fromMs, toMs, PageSize(limit), r.value)
  {
    if fromMs > toMs {
      return Failure(DataError);
    }
    var size := PageSize(limit);
    ghost var matches := Matches(s, deviceId, fromMs, toMs);
    var todo := set k | k in s.rows && InRange(s.rows[k], deviceId, fromMs, toMs);
    var out: seq<Row> := [];
    while |out| < size && todo != {}
      invariant todo <= matches
      invariant |out| + |todo| == |matches| && |out| <= size
      invariant forall i :: 0 <= i < |out| ==>
        out[i].id in matches && s.rows[out[i].id] == out[i] && out[i].id !in todo
      invariant forall i, j :: 0 <= i < j < |out| ==> Before(out[i], out[j])
      invariant forall i, k :: 0 <= i < |out| && k in todo ==> Before(out[i], s.rows[k])
      invariant forall k :: k in matches && k !in todo ==> s.rows[k] in out
      decreases |todo|
    {
      var m := FirstInIndex(s, todo);
      out := out + [s.rows[m]];
      todo := todo - {m};
    }
    forall k | k in matches && s.rows[k] !in out
      ensures forall i :: 0 <= i < |out| ==> Before(out[i], s.rows[k])
    {
      assert k in todo;
    }
    return Success(out);
  }

  lemma BeforeAsymmetric(a: Row, b: Row)
    ensures !(Before(a, b) && Before(b, a))
  {
  }

  /**
   * A matching row that a page does not list before position `i` cannot come
   * before the row at position `i`.
   */
  lemma NotBeforeFrontier(s: Store, deviceId: string, fromMs: int, toMs: int, n: nat, p: seq<Row>, x: Row, i: nat)
    requires IsRangePage(s, deviceId, fromMs, toMs, n, p)
    requires x.id in s.rows && s.rows[x.id] == x && InRange(x, deviceId, fromMs, toMs)
    requires i < |p| && x !in p[..i]
    ensures !Before(x, p[i])
  {
    if x in p {
      var j :| 0 <= j < |p| && p[j] == x;
      assert forall t :: 0 <= t < i ==> p[..i][t] == p[t];
      assert j >= i;
      if j > i {
        BeforeAsymmetric(p[i], p[j]);
      }
    } else {
      assert x.id in Matches(s, deviceId, fromMs, toMs);
      BeforeAsymmetric(p[i], x);
    }
  }

  /**
   * A page is a prefix of every longer page over the same range; in
   * particular of the full, unlimited match list.
   */
  lemma {:induction false} RangePagePrefix(s: Store, deviceId: string, fromMs: int, toMs: int,
                                           n1: nat, p1: seq<Row>, n2: nat, p2: seq<Row>)
    requires IsRangePage(s, deviceId, fromMs, toMs, n1, p1)
    requires IsRangePage(s, deviceId, fromMs, toMs, n2, p2)
    requires n1 <= n2
    ensures |p1| <= |p2| && p1 == p2[..|p1|]
  {
    var i := 0;
    while i < |p1|
      invariant 0 <= i <= |p1|
      invariant p1[..i] == p2[..i]
    {
      var a, b := p1[i], p2[i];
      assert forall t :: 0 <= t < i ==> p1[..i][t] == p1[t] && Before(p1[t], a);
      assert forall t :: 0 <= t < i ==> p2[..i][t] == p2[t] && Before(p2[t], b);
      NotBeforeFrontier(s, deviceId, fromMs, toMs, n2, p2, a, i);
      NotBeforeFrontier(s, deviceId, fromMs, toMs, n1, p1, b, i);
      assert a.id == b.id;
      assert p1[..i + 1] == p1[..i] + [a] && p2[..i + 1] == p2[..i] + [b];
      i := i + 1;
    }
  }

  /* ---------------- retention ---------------- */

  /**
   * `pruneBefore(cut)`: deletes every row, of any device, with `ts < cut`;
   * the surviving rows, the key generator and the `kv` store are unchanged.
   */
  function PruneBefore(s: Store, cut: int): (r: Store)
    ensures r.rows.Keys == set k | k in s.rows && s.rows[k].ts >= cut
    ensures forall k :: k in r.rows ==> r.rows[k] == s.rows[k]
    ensures r.nextId == s.nextId && r.kv == s.kv
    ensures Valid(s) ==> Valid(r)
  {
    s.(rows := map k | k in s.rows && s.rows[k].ts >= cut :: s.rows[k])
  }

  /** Pruning twice with two cuts is pruning once with the later cut; the same cut twice changes nothing. */
  lemma PruneComposes(s: Store, a: int, b: int)
    ensures PruneBefore(PruneBefore(s, a), b) == PruneBefore(s, if a < b then b else a)
    ensures PruneBefore(PruneBefore(s, a), a) == PruneBefore(s, a)
  {
  }

  /** A range read that starts at or after the cut sees exactly what it saw before the prune. */
  lemma PruneKeepsLaterRanges(s: Store, cut: int, deviceId: string, fromMs: int, toMs: int, size: nat, page: seq<Row>)
    requires cut <= fromMs
    ensures IsRangePage(s, deviceId, fromMs, toMs, size, page)
        <==> IsRangePage(PruneBefore(s, cut), deviceId, fromMs, toMs, size, page)
  {
    assert Matches(s, deviceId, fromMs, toMs) == Matches(PruneBefore(s, cut), deviceId, fromMs, toMs);
  }
}

=== FILE: router.dfy ===
/**
 * The hash router of `public/core/router.js`: reading the route from
 * `location.hash`, the unknown-route fallback, the session guard, and the
 * decision `navigate` takes on each `hashchange`.
 *
 * Loading a screen (`import()` plus its `render`) is an oracle `Loader`.
 */
module Router {
  import opened Wrappers
  import opened Strings
  import opened WebStorage

  const Splash: string := "/splash"
  const Login: string := "/login"
  const Register: string := "/register"
  const Home: string := "/home"
  const Dashboard: string := "/dashboard"

  /** The keys of the `routes` table. */
  const Routes: set<string> := {Splash, Login, Register, Home, Dashboard}

  /** The router's notion of a session: an `authToken` in either storage area. */
  predicate IsAuthenticated(b: Browser) {
    Holds(b.local, AuthTokenKey) || Holds(b.session, AuthTokenKey)
  }

  /** `location.hash.replace("#", "")`: only the first `#` is removed. */
  function WithoutFirstHash(hash: string): (r: string)
    ensures '#' !in hash ==> r == hash
    ensures |r| == if '#' in hash then |hash| - 1 else |hash|
  {
    match IndexOf(hash, '#')
    case None => hash
    case Some(i) => hash[..i] + hash[i + 1..]
  }

  /** `getPath()`: the trimmed hash without its `#`, or `/splash` when that is empty. */
  function GetPath(hash: string): (r: string)
    ensures r != ""
    ensures Trim(WithoutFirstHash(hash)) != "" ==> r == Trim(WithoutFirstHash(hash))
    ensures Trim(WithoutFirstHash(hash)) == "" ==> r == Splash
  {
    var path := Trim(WithoutFirstHash(hash));
    if path == "" then Splash else path
  }

  /** The path is never padded with white space. */
  lemma GetPathTrimmed(hash: string)
    ensures Trim(GetPath(hash)) == GetPath(hash)
  {
    TrimIdempotent(WithoutFirstHash(hash));
    assert Trim(Splash) == Splash by {
      assert !IsJsSpace(Splash[0]) && !IsJsSpace(Splash[|Splash| - 1]);
    }
  }

  /** A route name needs no trimming and holds no `#`. */
  predicate PlainPath(p: string) {
    p != "" && '#' !in p && !IsJsSpace(p[0]) && !IsJsSpace(p[|p| - 1])
  }

  /** The hash `go(p)` writes reads back as `p`. */
  lemma {:induction false} GetPathOfHash(p: string)
    requires PlainPath(p)
    ensures GetPath("#" + p) == p
  {
    assert IndexOf("#" + p, '#') == Some(0);
    assert WithoutFirstHash("#" + p) == p;
    assert TrimStart(p) == p;
    assert TrimEnd(p) == p;
  }

  lemma RoutesArePlain(p: string)
    requires p in Routes
    ensures PlainPath(p)
  {
    assert p[0] == '/' && p[|p| - 1] in "hnrdeo";
  }

  /** The unknown-route fallback of `navigate`: a path outside `routes` becomes `/splash`. */
  function Resolve(path: string): (r: string)
    ensures r in Routes
    ensures path in Routes ==> r == path
    ensures path !in Routes ==> r == Splash
  {
    if path in Routes then path else Splash
  }

  /** `guard(path)` for a given session state. */
  function Guard(path: string, authed: bool): (r: string)
    ensures !authed && path == Dashboard ==> r == Login
    ensures authed && (path == Home || path == Login || path == Register) ==> r == Dashboard
    ensures (authed || path != Dashboard) && !(authed && (path == Home || path == Login || path == Register)) ==>
              r == path
  {
    if path == Dashboard && !authed then Login
    else if authed && (path == Home || path == Login) then Dashboard
    else if authed && path == Register then Dashboard
    else path
  }

  /**
   * The guard maps registered routes to registered routes, and applying it
   * twice is applying it once; an unauthenticated visitor is only ever kept
   * out of `/dashboard`, and a signed-in one only ever sent to it.
   */
  lemma GuardSettles(path: string, authed: bool)
    ensures path in Routes ==> Guard(path, authed) in Routes
    ensures Guard(Guard(path, authed), authed) == Guard(path, authed)
    ensures Guard(path, authed) != path ==> Guard(path, authed) == (if authed then Dashboard else Login)
  {
  }

  /**
   * `go(path)`: the new `location.hash` when it is written, `None` when the
   * hash already is `#path` and nothing is written.
   */
  function Go(hash: string, path: string): (r: Option<string>)
    ensures r.None? <==> hash == "#" + path
    ensures r.Some? ==> r.value == "#" + path && r.value != hash
  {
    if hash != "#" + path then Some("#" + path) else None
  }

  /** Whether the screen module of a route imports and renders without throwing. */
  type Loader = string -> bool

  /** What one run of `navigate` does. */
  datatype Nav =
    | Redirected(write: Option<string>)
    | Rendered(route: string)
    | Failed(write: Option<string>)

  /** `navigate()` for a hash, a session state and a loader. */
  function Navigate(hash: string, authed: bool, loads: Loader): (r: Nav)
    ensures r.Rendered? ==> r.route in Routes && loads(r.route) && Guard(r.route, authed) == r.route
    ensures r.Rendered? ==> r.route == Resolve(GetPath(hash))
    ensures r.Redirected? <==> Guard(Resolve(GetPath(hash)), authed) != Resolve(GetPath(hash))
    ensures r.Redirected? ==> r.write == Go(hash, Guard(Resolve(GetPath(hash)), authed))
    ensures r.Failed? ==> r.write == Go(hash, Splash) && !loads(Resolve(GetPath(hash)))
  {
    var path := Resolve(GetPath(hash));
    var next := Guard(path, authed);
    if next != path then Redirected(Go(hash, next))
    else if loads(path) then Rendered(path)
    else Failed(Go(hash, Splash))
  }

  /**
   * A redirect always writes the hash, so a `hashchange` follows; and the
   * `navigate` that handles it, under the same session, never redirects
   * again: it renders the guarded route or fails to load it.
   */
  lemma RedirectSettles(hash: string, authed: bool, loads: Loader)
    requires Navigate(hash, authed, loads).Redirected?
    ensures Navigate(hash, authed, loads).write.Some?
    ensures !Navigate(Navigate(hash, authed, loads).write.value, authed, loads).Redirected?
  {
    var path := Resolve(GetPath(hash));
    var next := Guard(path, authed);
    GuardSettles(path, authed);
    RoutesArePlain(next);
    GetPathOfHash(next);
    assert hash == "#" + next ==> path == next;
    assert Resolve(GetPath("#" + next)) == next;
  }

  // ---------------------------------------------------------------------------
  // The route table as written: an object literal, looked up with `routes[path]`.
  // ---------------------------------------------------------------------------

  /** Own and inherited properties of every plain object (`Object.prototype`). */
  const PrototypeNames: set<string> := {
    "constructor", "hasOwnProperty", "isPrototypeOf", "propertyIsEnumerable", "toLocaleString",
    "toString", "valueOf", "__proto__", "__defineGetter__", "__defineSetter__",
    "__lookupGetter__", "__lookupSetter__"
  }

  /** Every route starts with `/` and no inherited property name does. */
  lemma RoutesNotInherited(p: string)
    ensures p in Routes ==> p != "" && p[0] == '/'
    ensures p in PrototypeNames ==> p != "" && p[0] != '/'
  {
  }

  /**
   * `navigate()` exactly as written: `!routes[path]` is false for an
   * inherited property name too, so such a path is kept, passes the guard,
   * and calling the inherited member as a loader never yields a screen with
   * `render`, so the run ends in `go("/splash")`.
   */
  function NavigateAsWritten(hash: string, authed: bool, loads: Loader): (r: Nav)
    ensures GetPath(hash) !in PrototypeNames ==> r == Navigate(hash, authed, loads)
    ensures GetPath(hash) in PrototypeNames ==> r == Failed(Go(hash, Splash))
  {
    var raw := GetPath(hash);
    RoutesNotInherited(raw);
    var path := if raw in Routes || raw in PrototypeNames then raw else Splash;
    var next := Guard(path, authed);
    if next != path then Redirected(Go(hash, next))
    else if path in Routes && loads(path) then Rendered(path)
    else Failed(Go(hash, Splash))
  }

  lemma ConstructorPath()
    ensures GetPath("#constructor") == "constructor"
  {
    var hash := "#constructor";
    var name := "constructor";
    assert hash == "#" + name;
    assert name == ['c', 'o', 'n', 's', 't', 'r', 'u', 'c', 't', 'o', 'r'];
    assert PlainPath(name) by {
      assert '#' !in name;
    }
    GetPathOfHash(name);
  }

  /**
   * `#constructor` shows the discrepancy: as written it rewrites the hash to
   * `#/splash` after a failed load, where the unknown-route fallback renders
   * the splash screen in place.
   */
  lemma PrototypeNameCounterexample(authed: bool, loads: Loader)
    requires loads(Splash)
    ensures NavigateAsWritten("#constructor", authed, loads) == Failed(Some("#/splash"))
    ensures Navigate("#constructor", authed, loads) == Rendered(Splash)
  {
    ConstructorPath();
    RoutesNotInherited("constructor");
    assert "constructor" in PrototypeNames;
    assert "#" + Splash == "#/splash";
    assert "#constructor"[1] != "#/splash"[1];
    assert Go("#constructor", Splash) == Some("#/splash");
  }
}

=== FILE: service_worker.dfy ===
/**
 * The cache policy of `public/serviceWorker.js`: the cache names, the
 * static-extension classifier, `install`, the `activate` clean-up, and the
 * `fetch` strategy (network-first for navigations, cache-first otherwise).
 *
 * The Cache API is modelled as an ordered list of named caches, each a map
 * from request URL to stored response; the network is an oracle.
 */
module ServiceWorker {
  import opened Wrappers
  import opened Strings

  const Version: string := "v1.0.6"
  const CachePrefix: string := "dev-suntec"
  const AppShellCache: string := CachePrefix + ":app-shell:" + Version
  const RuntimeCache: string := CachePrefix + ":runtime:" + Version
  const OfflineUrl: string := "/public/offline.html"

  lemma CacheNames()
    ensures AppShellCache == "dev-suntec:app-shell:v1.0.6"
    ensures RuntimeCache == "dev-suntec:runtime:v1.0.6"
    ensures AppShellCache != RuntimeCache
  {
    assert AppShellCache[11] != RuntimeCache[11];
  }

  /** The URLs precached on install. */
  const AppShell: seq<string> := [
    "/public/", "/public/index.html", "/index.html",
    "/public/manifest.json", "/public/assets/icons/icon-192.png",
    "/public/assets/icons/icon-192-maskable.png", "/public/assets/icons/icon-512.png",
    "/public/assets/icons/icon-512-maskable.png",
    "/public/assets/logo3.png", "/public/assets/logo.png",
    "/public/styles/base.css", "/public/styles/theme.css",
    "/public/core/router.js", "/public/core/guards.js", "/public/core/auth.js",
    "/public/core/layout.js", "/public/core/db.js",
    "/public/utils/dom.js",
    "/public/components/topbar/topbar.html", "/public/components/sidebar/sidebar.html",
    "/public/components/footer/footer.html",
    "/public/screens/splash/splash.html", "/public/screens/splash/splash.js",
    "/public/screens/home/home.html", "/public/screens/home/home.js",
    "/public/screens/login/login.html", "/public/screens/login/login.js",
    "/public/assets/hero.png", "/public/assets/panelCasa.jpg", "/public/assets/casaPanel.png",
    "/public/assets/parqueSolar.jpg", "/public/assets/monProd.png",
    OfflineUrl
  ]

  // ---------------------------------------------------------------------------
  // The static-extension classifier.
  // ---------------------------------------------------------------------------

  /** The alternatives of the extension pattern, with `woff2?` written out as two. */
  const StaticExtensions: seq<string> := [
    "js", "css", "json", "png", "jpg", "jpeg", "gif", "svg", "webp", "ico",
    "woff", "woff2", "ttf", "map", "mp4", "webm"
  ]

  /** Whether `s` ends in `.` followed by one of `exts`. */
  function EndsWithDotAny(s: string, exts: seq<string>): (r: bool)
    ensures r <==> exists k :: 0 <= k < |exts| && EndsWith(s, "." + exts[k])
  {
    if |exts| == 0 then false
    else EndsWith(s, "." + exts[0]) || EndsWithDotAny(s, exts[1..])
  }

  /**
   * `isStaticExt(url)`: the case-insensitive pattern anchored at the end of
   * the path name. Without the `u` flag, case-insensitive matching folds no
   * non-ASCII character onto an ASCII letter, so folding ASCII letters is exact.
   */
  function IsStaticExt(pathname: string): bool {
    EndsWithDotAny(Lower(pathname), StaticExtensions)
  }

  /** The index of the last `.` in `s`. */
  function LastDot(s: string): (r: Option<nat>)
    ensures r.Some? ==> r.value < |s| && s[r.value] == '.' && '.' !in s[r.value + 1..]
    ensures r.None? ==> '.' !in s
  {
    if |s| == 0 then None
    else if s[|s| - 1] == '.' then Some(|s| - 1)
    else
      var r := LastDot(s[..|s| - 1]);
      assert r.Some? ==> s[r.value + 1..] == s[..|s| - 1][r.value + 1..] + [s[|s| - 1]];
      assert s == s[..|s| - 1] + [s[|s| - 1]];
      r
  }

  /** The text after the last `.`, when there is one. */
  function Extension(s: string): Option<string> {
    match LastDot(s)
    case None => None
    case Some(i) => Some(s[i + 1..])
  }

  /** For a dot-free extension, "ends in `.e`" and "the text after the last dot is `e`" agree. */
  lemma {:induction false} EndsWithDotIffExtension(s: string, e: string)
    requires '.' !in e
    ensures EndsWith(s, "." + e) <==> Extension(s) == Some(e)
  {
    if EndsWith(s, "." + e) {
      var j := |s| - |e| - 1;
      assert s[j..] == "." + e;
      assert s[j] == '.';
      assert s[j + 1..] == e;
      var i := LastDot(s).value;
      forall k | i + 1 <= k < |s| ensures s[k] != '.' {
        assert s[k] == s[i + 1..][k - i - 1];
      }
      forall k | j + 1 <= k < |s| ensures s[k] != '.' {
        assert s[k] == e[k - j - 1];
      }
      assert i == j;
    }
    if Extension(s) == Some(e) {
      var i := LastDot(s).value;
      assert s[i..] == "." + e;
    }
  }

  lemma ExtensionsDotFree()
    ensures forall k :: 0 <= k < |StaticExtensions| ==> '.' !in StaticExtensions[k]
  {
  }

  /**
   * The classifier answers exactly whether the lower-cased text after the
   * path's last dot is one of the listed extensions.
   */
  lemma IsStaticExtSpec(pathname: string)
    ensures IsStaticExt(pathname) <==>
              Extension(Lower(pathname)).Some? && Extension(Lower(pathname)).value in StaticExtensions
  {
    var s := Lower(pathname);
    ExtensionsDotFree();
    forall k | 0 <= k < |StaticExtensions|
      ensures EndsWith(s, "." + StaticExtensions[k]) <==> Extension(s) == Some(StaticExtensions[k])
    {
      EndsWithDotIffExtension(s, StaticExtensions[k]);
    }
  }

  /** Both `woff` and `woff2` match, in any letter case. */
  lemma WoffMatches()
    ensures IsStaticExt("/f.woff") && IsStaticExt("/f.WOFF2")
  {
    assert Lower("/f.woff") == "/f.woff";
    assert StaticExtensions[10] == "woff";
    assert EndsWith("/f.woff", "." + StaticExtensions[10]);
    assert Lower("/f.WOFF2") == "/f.woff2";
    assert StaticExtensions[11] == "woff2";
    assert "." + StaticExtensions[11] == ".woff2";
    assert "/f.woff2"[|"/f.woff2"| - |".woff2"|..] == ".woff2";
    assert EndsWith("/f.woff2", "." + StaticExtensions[11]);
  }

  lemma LowerHtml(stem: string)
    ensures Lower(stem + ".html") == Lower(stem) + ".html"
  {
    var p := stem + ".html";
    forall k | 0 <= k < |p| ensures Lower(p)[k] == (Lower(stem) + ".html")[k] {
      if k >= |stem| {
        assert p[k] == ".html"[k - |stem|];
      } else {
        assert p[k] == stem[k];
      }
    }
  }

  lemma HtmlNotListed()
    ensures "html" !in StaticExtensions
    ensures '.' !in "html" && "." + "html" == ".html"
  {
  }

  /** An `.html` page is not a static asset, so its navigation goes to the network first. */
  lemma PageNotStatic(stem: string)
    ensures !IsStaticExt(stem + ".html")
  {
    var low := Lower(stem + ".html");
    HtmlNotListed();
    LowerHtml(stem);
    IsStaticExtSpec(stem + ".html");
    assert low[|low| - 5..] == ".html";
    EndsWithDotIffExtension(low, "html");
  }

  // ---------------------------------------------------------------------------
  // The cache storage.
  // ---------------------------------------------------------------------------

  datatype ResponseType = Basic | Cors | Default | Error | Opaque | OpaqueRedirect

  datatype Response = Response(kind: ResponseType, status: int, body: string)

  type Cache = map<string, Response>

  /** `caches`: the cache names in creation order, and the caches themselves. */
  datatype CacheStorage = CacheStorage(order: seq<string>, caches: map<string, Cache>)

  predicate NoDuplicates(s: seq<string>) {
    forall i, j :: 0 <= i < j < |s| ==> s[i] != s[j]
  }

  predicate Valid(cs: CacheStorage) {
    && NoDuplicates(cs.order)
    && (forall n :: n in cs.order ==> n in cs.caches)
    && (forall n :: n in cs.caches ==> n in cs.order)
  }

  /** The first response stored for `url`, searching the caches in order. */
  function MatchIn(order: seq<string>, caches: map<string, Cache>, url: string): (r: Option<Response>)
    requires forall n :: n in order ==> n in caches
    ensures r.None? <==> forall n :: n in order ==> url !in caches[n]
    ensures r.Some? ==> exists n :: n in order && url in caches[n] && caches[n][url] == r.value
    ensures r.Some? ==>
              exists i :: 0 <= i < |order| && url in caches[order[i]] && r.value == caches[order[i]][url] &&
                forall j :: 0 <= j < i ==> url !in caches[order[j]]
  {
    if |order| == 0 then None
    else if url in caches[order[0]] then Some(caches[order[0]][url])
    else
      var r := MatchIn(order[1..], caches, url);
      assert r.Some? ==> exists i :: 0 <= i < |order| && url in caches[order[i]] && r.value == caches[order[i]][url] &&
                           forall j :: 0 <= j < i ==> url !in caches[order[j]] by {
        if r.Some? {
          var i :| 0 <= i < |order| - 1 && url in caches[order[1..][i]] && r.value == caches[order[1..][i]][url] &&
                   forall j :: 0 <= j < i ==> url !in caches[order[1..][j]];
          assert order[i + 1] == order[1..][i];
          forall j | 0 <= j < i + 1 ensures url !in caches[order[j]] {
            if j > 0 { assert order[j] == order[1..][j - 1]; }
          }
        }
      }
      r
  }

  /** `caches.match(url)`. */
  function Match(cs: CacheStorage, url: string): (r: Option<Response>)
    requires Valid(cs)
    ensures r.None? <==> forall n :: n in cs.caches ==> url !in cs.caches[n]
  {
    MatchIn(cs.order, cs.caches, url)
  }

  /** `caches.open(name)`: creates an empty cache at the end of the order when it is missing. */
  function Open(cs: CacheStorage, name: string): (r: CacheStorage)
    requires Valid(cs)
    ensures Valid(r) && name in r.caches
    ensures name in cs.caches ==> r == cs
    ensures name !in cs.caches ==> r.caches == cs.caches[name := map[]] && r.order == cs.order + [name]
  {
    if name in cs.caches then cs else CacheStorage(cs.order + [name], cs.caches[name := map[]])
  }

  /** `cache.put(url, response)` on the cache of that name, opening it first. */
  function Put(cs: CacheStorage, name: string, url: string, resp: Response): (r: CacheStorage)
    requires Valid(cs)
    ensures Valid(r) && name in r.caches && url in r.caches[name] && r.caches[name][url] == resp
    ensures forall u :: u in Open(cs, name).caches[name] && u != url ==> u in r.caches[name] && r.caches[name][u] == Open(cs, name).caches[name][u]
    ensures r.caches[name].Keys == Open(cs, name).caches[name].Keys + {url}
    ensures forall n :: n in cs.caches && n != name ==> n in r.caches && r.caches[n] == cs.caches[n]
    ensures r.order == Open(cs, name).order
  {
    var o := Open(cs, name);
    o.(caches := o.caches[name := o.caches[name][url := resp]])
  }

  // ---------------------------------------------------------------------------
  // install and activate.
  // ---------------------------------------------------------------------------

  datatype NetResult = Fetched(resp: Response) | NetworkError

  /** `response.ok`: a status in the range 200 to 299. */
  predicate Ok(resp: Response) {
    200 <= resp.status <= 299
  }

  /** Stores each URL's fetched response in order. */
  function AddEach(cache: Cache, urls: seq<string>, fetch: string -> NetResult): (r: Cache)
    requires forall k :: 0 <= k < |urls| ==> fetch(urls[k]).Fetched?
    ensures forall k :: 0 <= k < |urls| ==> urls[k] in r && r[urls[k]] == fetch(urls[k]).resp
    ensures forall u :: u in cache && u !in urls ==> u in r && r[u] == cache[u]
    ensures r.Keys == cache.Keys + set k | 0 <= k < |urls| :: urls[k]
  {
    if |urls| == 0 then cache
    else
      var init := urls[..|urls| - 1];
      var last := urls[|urls| - 1];
      var r := AddEach(cache, init, fetch)[last := fetch(last).resp];
      assert forall k :: 0 <= k < |urls| - 1 ==> urls[k] == init[k];
      assert (set k | 0 <= k < |urls| :: urls[k]) == (set k | 0 <= k < |init| :: init[k]) + {last};
      r
  }

  /**
   * Every URL fetched with an ok response that is not partial (206): the
   * condition under which `addAll` resolves.
   */
  predicate AllOk(urls: seq<string>, fetch: string -> NetResult) {
    forall k :: 0 <= k < |urls| ==>
      fetch(urls[k]).Fetched? && Ok(fetch(urls[k]).resp) && fetch(urls[k]).resp.status != 206
  }

  /**
   * `install`: open the app-shell cache, then `addAll(appShell)`, which
   * stores every response or, when any fetch fails or is not ok, none.
   */
  function Install(cs: CacheStorage, fetch: string -> NetResult): (r: CacheStorage)
    requires Valid(cs)
    ensures Valid(r) && AppShellCache in r.caches
    ensures AllOk(AppShell, fetch) ==>
              forall k :: 0 <= k < |AppShell| ==>
                AppShell[k] in r.caches[AppShellCache] && r.caches[AppShellCache][AppShell[k]] == fetch(AppShell[k]).resp
    ensures AllOk(AppShell, fetch) ==>
              r.caches[AppShellCache].Keys ==
                Open(cs, AppShellCache).caches[AppShellCache].Keys + set k | 0 <= k < |AppShell| :: AppShell[k]
    ensures AllOk(AppShell, fetch) ==>
              var before := Open(cs, AppShellCache).caches[AppShellCache];
              forall u :: u in before && u !in AppShell ==> u in r.caches[AppShellCache] && r.caches[AppShellCache][u] == before[u]
    ensures !AllOk(AppShell, fetch) ==> r == Open(cs, AppShellCache)
    ensures forall n :: n in cs.caches && n != AppShellCache ==> n in r.caches && r.caches[n] == cs.caches[n]
    ensures r.order == Open(cs, AppShellCache).order
  {
    var o := Open(cs, AppShellCache);
    if AllOk(AppShell, fetch) then
      o.(caches := o.caches[AppShellCache := AddEach(o.caches[AppShellCache], AppShell, fetch)])
    else o
  }

  /** The `activate` predicate: an old version of this app's caches. */
  predicate Obsolete(name: string) {
    !(name == AppShellCache || name == RuntimeCache) && StartsWith(name, CachePrefix + ":")
  }

  /** `x` occurs in `s` before some occurrence of `y`. */
  predicate Before(s: seq<string>, x: string, y: string) {
    exists a, b :: 0 <= a < b < |s| && s[a] == x && s[b] == y
  }

  /** Any two names of `sub` appear in `s` in the same relative order. */
  predicate KeepsOrder(sub: seq<string>, s: seq<string>) {
    forall i, j :: 0 <= i < j < |sub| ==> Before(s, sub[i], sub[j])
  }

  lemma BeforeInTail(s: seq<string>, x: string, y: string)
    requires |s| > 0 && Before(s[1..], x, y)
    ensures Before(s, x, y)
  {
    var a, b :| 0 <= a < b < |s| - 1 && s[1..][a] == x && s[1..][b] == y;
    assert s[a + 1] == x && s[b + 1] == y;
  }

  lemma BeforeFromHead(s: seq<string>, y: string)
    requires |s| > 0 && y in s[1..]
    ensures Before(s, s[0], y)
  {
    var b :| 0 <= b < |s| - 1 && s[1..][b] == y;
    assert s[b + 1] == y;
  }

  /** A name order kept within the tail of `s` is kept within `s`. */
  lemma ShiftOrder(sub: seq<string>, s: seq<string>)
    requires |s| > 0 && KeepsOrder(sub, s[1..])
    ensures KeepsOrder(sub, s)
  {
    forall i, j | 0 <= i < j < |sub|
      ensures Before(s, sub[i], sub[j])
    {
      BeforeInTail(s, sub[i], sub[j]);
    }
  }

  /** Putting the head of `s` in front of an ordered sub-sequence of its tail keeps the order. */
  lemma ConsOrder(rest: seq<string>, s: seq<string>)
    requires |s| > 0 && KeepsOrder(rest, s[1..])
    requires forall n :: n in rest ==> n in s[1..]
    ensures KeepsOrder([s[0]] + rest, s)
  {
    var r := [s[0]] + rest;
    forall i, j | 0 <= i < j < |r|
      ensures Before(s, r[i], r[j])
    {
      assert r[j] == rest[j - 1];
      if i == 0 {
        BeforeFromHead(s, rest[j - 1]);
      } else {
        assert r[i] == rest[i - 1];
        BeforeInTail(s, rest[i - 1], rest[j - 1]);
      }
    }
  }

  /**
   * The cache names left once the obsolete ones are deleted: deleting a
   * cache leaves the others in their creation order.
   */
  function KeepCurrent(order: seq<string>): (r: seq<string>)
    ensures forall n :: n in r <==> n in order && !Obsolete(n)
    ensures NoDuplicates(order) ==> NoDuplicates(r)
    ensures KeepsOrder(r, order)
  {
    if |order| == 0 then []
    else
      var rest := KeepCurrent(order[1..]);
      assert forall n :: n in order[1..] ==> n in order;
      if Obsolete(order[0]) then
        ShiftOrder(rest, order);
        rest
      else
        assert NoDuplicates(order) ==> order[0] !in order[1..];
        ConsOrder(rest, order);
        [order[0]] + rest
  }

  /** `activate`: deletes exactly the obsolete caches. */
  function Activate(cs: CacheStorage): (r: CacheStorage)
    requires Valid(cs)
    ensures Valid(r)
    ensures forall n :: n in r.caches <==> n in cs.caches && !Obsolete(n)
    ensures forall n :: n in r.caches ==> r.caches[n] == cs.caches[n]
    ensures KeepsOrder(r.order, cs.order)
  {
    var keys := set n | n in cs.caches && !Obsolete(n);
    CacheStorage(KeepCurrent(cs.order), map n | n in keys :: cs.caches[n])
  }

  /**
   * Deleting caches that do not hold `url` leaves the answer of a match for
   * it as it was: the surviving caches are searched in the same order.
   */
  lemma {:induction false} MatchInKeepCurrent(order: seq<string>, caches: map<string, Cache>, kept: map<string, Cache>, url: string)
    requires forall n :: n in order ==> n in caches
    requires forall n :: n in order && !Obsolete(n) ==> n in kept && kept[n] == caches[n]
    requires forall n :: n in order && Obsolete(n) ==> url !in caches[n]
    ensures forall n :: n in KeepCurrent(order) ==> n in kept
    ensures MatchIn(KeepCurrent(order), kept, url) == MatchIn(order, caches, url)
    decreases |order|
  {
    if |order| > 0 {
      assert forall n :: n in order[1..] ==> n in order;
      MatchInKeepCurrent(order[1..], caches, kept, url);
      var rest := KeepCurrent(order[1..]);
      if !Obsolete(order[0]) {
        assert KeepCurrent(order) == [order[0]] + rest;
        assert ([order[0]] + rest)[1..] == rest;
      }
    }
  }

  /** After activation, a URL no obsolete cache held matches the same response as before. */
  lemma ActivateMatches(cs: CacheStorage, url: string)
    requires Valid(cs)
    ensures (forall n :: n in cs.caches && Obsolete(n) ==> url !in cs.caches[n]) ==>
              Match(Activate(cs), url) == Match(cs, url)
  {
    if forall n :: n in cs.caches && Obsolete(n) ==> url !in cs.caches[n] {
      MatchInKeepCurrent(cs.order, cs.caches, Activate(cs).caches, url);
    }
  }

  /** Both current caches, and every cache of another application, survive activation; activating twice deletes nothing more. */
  lemma ActivateKeeps(cs: CacheStorage, name: string)
    requires Valid(cs) && name in cs.caches
    ensures name == AppShellCache || name == RuntimeCache ==> name in Activate(cs).caches
    ensures !StartsWith(name, CachePrefix + ":") ==> name in Activate(cs).caches
    ensures Activate(Activate(cs)).caches == Activate(cs).caches
  {
  }

  // ---------------------------------------------------------------------------
  // fetch.
  // ---------------------------------------------------------------------------

  datatype Request = Request(url: string, pathname: string, httpMethod: string, mode: string)

  type Network = Request -> NetResult

  predicate IsNavigation(req: Request) {
    req.mode == "navigate" && !IsStaticExt(req.pathname)
  }

  /** `cache.put` stores only GET requests and never a partial (206) response; its rejection is not awaited. */
  predicate Storable(req: Request, resp: Response) {
    req.httpMethod == "GET" && resp.status != 206
  }

  /** `caches.match(req)`: a non-GET request matches nothing. */
  function MatchRequest(cs: CacheStorage, req: Request): Option<Response>
    requires Valid(cs)
  {
    if req.httpMethod == "GET" then Match(cs, req.url) else None
  }

  /** What the worker answers (`None`: the page sees a network error), the caches after, and whether it went to the network. */
  datatype Outcome = Outcome(reply: Option<Response>, storage: CacheStorage, usedNetwork: bool)

  /** Opens the runtime cache and stores the response there when the request and response allow it. */
  function StoreRuntime(cs: CacheStorage, req: Request, resp: Response, wanted: bool): (r: CacheStorage)
    requires Valid(cs)
    ensures Valid(r) && RuntimeCache in r.caches
    ensures wanted && Storable(req, resp) ==> req.url in r.caches[RuntimeCache] && r.caches[RuntimeCache][req.url] == resp
    ensures wanted && Storable(req, resp) ==>
              r.caches[RuntimeCache].Keys == Open(cs, RuntimeCache).caches[RuntimeCache].Keys + {req.url}
    ensures wanted && Storable(req, resp) ==>
              var before := Open(cs, RuntimeCache).caches[RuntimeCache];
              forall u :: u in before && u != req.url ==> u in r.caches[RuntimeCache] && r.caches[RuntimeCache][u] == before[u]
    ensures !(wanted && Storable(req, resp)) ==> r == Open(cs, RuntimeCache)
    ensures forall n :: n in cs.caches && n != RuntimeCache ==> n in r.caches && r.caches[n] == cs.caches[n]
    ensures r.order == Open(cs, RuntimeCache).order
  {
    if wanted && Storable(req, resp) then Put(cs, RuntimeCache, req.url, resp) else Open(cs, RuntimeCache)
  }

  /** The `fetch` handler. */
  function HandleFetch(cs: CacheStorage, req: Request, net: Network): (r: Outcome)
    requires Valid(cs)
    ensures Valid(r.storage)
    // Navigations: network first.
    ensures IsNavigation(req) ==> r.usedNetwork
    ensures IsNavigation(req) && net(req).Fetched? ==>
              r.reply == Some(net(req).resp) && r.storage == StoreRuntime(cs, req, net(req).resp, true)
    ensures IsNavigation(req) && net(req).NetworkError? ==>
              r.storage == cs &&
              r.reply == (if MatchRequest(cs, req).Some? then MatchRequest(cs, req) else Match(cs, OfflineUrl))
    // Everything else: cache first.
    ensures !IsNavigation(req) && MatchRequest(cs, req).Some? ==>
              r == Outcome(MatchRequest(cs, req), cs, false)
    ensures !IsNavigation(req) && MatchRequest(cs, req).None? ==> r.usedNetwork
    ensures !IsNavigation(req) && MatchRequest(cs, req).None? && net(req).Fetched? ==>
              r.reply == Some(net(req).resp) &&
              r.storage == StoreRuntime(cs, req, net(req).resp, net(req).resp.kind == Basic || net(req).resp.kind == Default)
    ensures !IsNavigation(req) && MatchRequest(cs, req).None? && net(req).NetworkError? ==>
              r.reply.None? && r.storage == cs
  {
    if IsNavigation(req) then
      match net(req)
      case Fetched(resp) => Outcome(Some(resp), StoreRuntime(cs, req, resp, true), true)
      case NetworkError =>
        var cached := MatchRequest(cs, req);
        Outcome(if cached.Some? then cached else Match(cs, OfflineUrl), cs, true)
    else
      var cached := MatchRequest(cs, req);
      if cached.Some? then Outcome(cached, cs, false)
      else
        match net(req)
        case Fetched(resp) => Outcome(Some(resp), StoreRuntime(cs, req, resp, resp.kind == Basic || resp.kind == Default), true)
        case NetworkError => Outcome(None, cs, true)
  }

  /**
   * Cache-first answers from the cache without the network, and an answer it
   * stores is what the next identical request is answered with.
   */
  lemma {:induction false} CacheFirstServesStored(cs: CacheStorage, req: Request, net: Network, later: Network)
    requires Valid(cs) && !IsNavigation(req) && req.httpMethod == "GET"
    requires MatchRequest(cs, req).None? && net(req).Fetched?
    requires net(req).resp.kind == Basic && net(req).resp.status != 206
    ensures !HandleFetch(HandleFetch(cs, req, net).storage, req, later).usedNetwork
    ensures HandleFetch(HandleFetch(cs, req, net).storage, req, later).reply == Some(net(req).resp)
  {
    var s := HandleFetch(cs, req, net).storage;
    assert forall n :: n in cs.caches ==> req.url !in cs.caches[n];
    assert req.url in s.caches[RuntimeCache];
    FirstMatchIsOnly(s.order, s.caches, req.url, RuntimeCache, net(req).resp);
  }

  /** When exactly one cache holds a URL, matching finds that cache's entry. */
  lemma {:induction false} FirstMatchIsOnly(order: seq<string>, caches: map<string, Cache>, url: string,
                                            name: string, resp: Response)
    requires forall n :: n in order ==> n in caches
    requires name in order && url in caches[name] && caches[name][url] == resp
    requires forall n :: n in order && n != name ==> url !in caches[n]
    ensures MatchIn(order, caches, url) == Some(resp)
  {
    if order[0] != name {
      assert name in order[1..];
      FirstMatchIsOnly(order[1..], caches, url, name, resp);
    }
  }

  /**
   * After a successful install, an offline navigation always gets an
   * answer: the cached page or, failing that, the precached offline page.
   */
  lemma OfflineNavigationAnswered(cs: CacheStorage, fetch: string -> NetResult, req: Request, net: Network)
    requires Valid(cs) && AllOk(AppShell, fetch)
    requires IsNavigation(req) && net(req).NetworkError?
    ensures HandleFetch(Activate(Install(cs, fetch)), req, net).reply.Some?
  {
    var i := Install(cs, fetch);
    assert AppShell[|AppShell| - 1] == OfflineUrl;
    assert OfflineUrl in i.caches[AppShellCache];
    CacheNames();
    var a := Activate(i);
    assert AppShellCache in a.caches && a.caches[AppShellCache] == i.caches[AppShellCache];
  }
}

=== FILE: session.dfy ===
/**
 * The client's three readings of "signed in", side by side: the router
 * (`public/core/router.js`), the sidebar
 * (`public/components/sidebar/sidebar.js`) and the dashboard's logout
 * (`public/screens/dashboard/dashboard.js`), over one shared model of Web
 * Storage.
 */
module Session {
  import opened Wrappers
  import opened WebStorage
  import Router
  import Sidebar
  import Dashboard

  /** Whenever the router sees a session, the sidebar shows. */
  lemma RouterSessionShowsSidebar(b: Browser)
    requires Router.IsAuthenticated(b)
    ensures Sidebar.IsAuthenticated(b) && Sidebar.Display(b) == ""
  {
  }

  /**
   * The two notions differ exactly on a stored `idToken` without any
   * `authToken`: the sidebar shows while the router treats the visitor as a
   * guest.
   */
  lemma SessionsDiffer(b: Browser)
    ensures Sidebar.IsAuthenticated(b) && !Router.IsAuthenticated(b) <==>
              Holds(b.local, IdTokenKey) && !Holds(b.local, AuthTokenKey) && !Holds(b.session, AuthTokenKey)
  {
  }

  /** A browser holding only an `idToken` shows the sidebar yet is sent from `/dashboard` to `/login`. */
  lemma IdTokenOnlyWitness(loads: Router.Loader)
    ensures var b := Browser(map[IdTokenKey := "t"], map[]);
            Sidebar.Display(b) == "" && !Router.IsAuthenticated(b) &&
            Router.Guard(Router.Dashboard, Router.IsAuthenticated(b)) == Router.Login
  {
    var b := Browser(map[IdTokenKey := "t"], map[]);
    assert Holds(b.local, IdTokenKey);
    assert AuthTokenKey !in b.local by {
      assert AuthTokenKey != IdTokenKey;
    }
  }

  /** The `#/home` that logout writes is rendered for a guest, not redirected. */
  lemma HomeRenderedForGuest(loads: Router.Loader)
    requires loads(Router.Home)
    ensures Router.Navigate(Dashboard.LogoutHash, false, loads) == Router.Rendered(Router.Home)
  {
    assert Dashboard.LogoutHash == "#" + Router.Home;
    Router.RoutesArePlain(Router.Home);
    Router.GetPathOfHash(Router.Home);
    assert Router.Resolve(Router.Home) == Router.Home;
    assert Router.Guard(Router.Home, false) == Router.Home;
  }

  /**
   * A completed logout ends the router's session, but the sidebar keeps
   * showing exactly when an `idToken` was stored in `localStorage`; and the
   * `#/home` it lands on is rendered for a guest.
   */
  lemma LogoutOutcome(b: Browser, loads: Router.Loader)
    requires loads(Router.Home)
    ensures var after := Dashboard.Logout(b, 4);
            !Router.IsAuthenticated(after.browser) &&
            (Sidebar.IsAuthenticated(after.browser) <==> Holds(b.local, IdTokenKey)) &&
            Router.Navigate(after.hash, Router.IsAuthenticated(after.browser), loads) == Router.Rendered(Router.Home)
  {
    var after := Dashboard.Logout(b, 4);
    assert AuthTokenKey !in after.browser.local && AuthTokenKey !in after.browser.session;
    assert !Router.IsAuthenticated(after.browser);
    Dashboard.LogoutKeepsIdToken(b, 4);
    HomeRenderedForGuest(loads);
  }
}

=== FILE: sidebar.dfy ===
/**
 * The session-dependent parts of the sidebar in
 * `public/components/sidebar/sidebar.js`: its visibility, the active-link
 * choice, and which `storage` events make it re-evaluate its visibility.
 *
 * Lower-casing is modelled on ASCII letters only; for the two ASCII targets
 * `#/dashboard` and `#/home` that decides every comparison the same way as
 * full `toLowerCase`.
 */
module Sidebar {
  import opened Wrappers
  import opened Strings
  import opened WebStorage

  const DashboardLink: string := "#/dashboard"
  const HomeLink: string := "#/home"

  /** The sidebar's notion of a session: `authToken` in either area, or `idToken` in `localStorage`. */
  predicate IsAuthenticated(b: Browser) {
    Holds(b.local, AuthTokenKey) || Holds(b.session, AuthTokenKey) || Holds(b.local, IdTokenKey)
  }

  /** `applyVisibility`: the `style.display` the sidebar gets. */
  function Display(b: Browser): (r: string)
    ensures r == "" <==> IsAuthenticated(b)
    ensures r == "none" <==> !IsAuthenticated(b)
  {
    if IsAuthenticated(b) then "" else "none"
  }

  /** `markActive` for one link: the lower-cased hash and `href` (missing is `''`). */
  predicate IsActive(hash: string, href: Option<string>) {
    var h := Lower(hash);
    var a := Lower(href.GetOr(""));
    (StartsWith(h, DashboardLink) && a == DashboardLink) || (StartsWith(h, HomeLink) && a == HomeLink)
  }

  /**
   * Only a link whose lower-cased `href` is one of the two targets can be
   * active, and a link without `href` never is.
   */
  lemma ActiveLinks(hash: string, href: Option<string>)
    ensures IsActive(hash, href) ==>
              Lower(href.GetOr("")) == DashboardLink || Lower(href.GetOr("")) == HomeLink
    ensures href.None? ==> !IsActive(hash, href)
  {
  }

  /**
   * For any hash, every active link has the same lower-cased `href`: the
   * two prefixes differ at their third character, so no hash starts with both.
   */
  lemma AtMostOneActiveTarget(hash: string, a: Option<string>, b: Option<string>)
    requires IsActive(hash, a) && IsActive(hash, b)
    ensures Lower(a.GetOr("")) == Lower(b.GetOr(""))
  {
    var h := Lower(hash);
    assert DashboardLink[2] != HomeLink[2];
    assert StartsWith(h, DashboardLink) ==> h[2] == DashboardLink[2];
    assert StartsWith(h, HomeLink) ==> h[2] == HomeLink[2];
  }

  /** A `storage` event: its `key`, which is `null` when another page cleared the area. */
  predicate Reacts(key: Option<string>) {
    key == Some(AuthTokenKey) || key == Some(IdTokenKey)
  }

  /**
   * The sidebar's display after a `storage` event, given the storage it now
   * sees: re-evaluated for the two token keys, kept for every other key.
   */
  function OnStorage(display: string, key: Option<string>, now: Browser): (r: string)
    ensures Reacts(key) ==> r == Display(now)
    ensures !Reacts(key) ==> r == display
  {
    if Reacts(key) then Display(now) else display
  }

  /** The sidebar's session keys read the same in two browsers. */
  predicate SameTokens(before: Browser, after: Browser) {
    && Holds(before.local, AuthTokenKey) == Holds(after.local, AuthTokenKey)
    && Holds(before.session, AuthTokenKey) == Holds(after.session, AuthTokenKey)
    && Holds(before.local, IdTokenKey) == Holds(after.local, IdTokenKey)
  }

  /**
   * After any `storage` event, the sidebar is stale exactly when the event's
   * key is filtered out and the session it shows has changed; so an event
   * for a token key, or one that left the token keys as they were, always
   * leaves it current.
   */
  lemma OnStorageStaleness(before: Browser, key: Option<string>, after: Browser)
    ensures OnStorage(Display(before), key, after) != Display(after) <==>
              !Reacts(key) && IsAuthenticated(before) != IsAuthenticated(after)
    ensures Reacts(key) || SameTokens(before, after) ==> OnStorage(Display(before), key, after) == Display(after)
  {
  }

  /**
   * The filter lets the sidebar go stale: after `localStorage.clear()` in
   * another page (an event whose key is `null`), a sidebar shown for a
   * stored `idToken` stays visible although no session is left.
   */
  lemma ClearLeavesSidebarStale()
    ensures var before := Browser(map[IdTokenKey := "t"], map[]);
            var after := Browser(map[], map[]);
            Display(before) == "" && !IsAuthenticated(after) &&
            OnStorage(Display(before), None, after) == ""
  {
    var before := Browser(map[IdTokenKey := "t"], map[]);
    assert Holds(before.local, IdTokenKey);
  }
}

=== FILE: strings.dfy ===
/**
 * String helpers with JavaScript semantics: prefix/suffix tests, ASCII case
 * folding, `String.prototype.trim`, and the decimal rendering `String(n)` of
 * an integer.
 */
module Strings {
  import opened Wrappers

  predicate StartsWith(s: string, prefix: string) {
    |prefix| <= |s| && s[..|prefix|] == prefix
  }

  predicate EndsWith(s: string, suffix: string) {
    |suffix| <= |s| && s[|s| - |suffix|..] == suffix
  }

  /** Lower-cases the ASCII letters `A`-`Z` and leaves every other character alone. */
  function LowerChar(c: char): char {
    if 'A' <= c <= 'Z' then (c as int + 32) as char else c
  }

  function Lower(s: string): (r: string)
    ensures |r| == |s|
    ensures forall i :: 0 <= i < |s| ==> r[i] == LowerChar(s[i])
  {
    if |s| == 0 then [] else [LowerChar(s[0])] + Lower(s[1..])
  }

  lemma LowerPrefix(s: string, n: nat)
    requires n <= |s|
    ensures Lower(s)[..n] == Lower(s[..n])
  {
  }

  /** The code points `String.prototype.trim` strips: ECMAScript WhiteSpace and LineTerminator. */
  predicate IsJsSpace(c: char) {
    var u := c as int;
    u == 0x09 || u == 0x0A || u == 0x0B || u == 0x0C || u == 0x0D || u == 0x20
    || u == 0xA0 || u == 0x1680 || (0x2000 <= u <= 0x200A) || u == 0x2028 || u == 0x2029
    || u == 0x202F || u == 0x205F || u == 0x3000 || u == 0xFEFF
  }

  function TrimStart(s: string): (r: string)
    ensures |r| <= |s| && r == s[|s| - |r|..]
    ensures forall i :: 0 <= i < |s| - |r| ==> IsJsSpace(s[i])
    ensures |r| > 0 ==> !IsJsSpace(r[0])
  {
    if |s| > 0 && IsJsSpace(s[0]) then TrimStart(s[1..]) else s
  }

  function TrimEnd(s: string): (r: string)
    ensures |r| <= |s| && r == s[..|r|]
    ensures forall i :: |r| <= i < |s| ==> IsJsSpace(s[i])
    ensures |r| > 0 ==> !IsJsSpace(r[|r| - 1])
  {
    if |s| > 0 && IsJsSpace(s[|s| - 1]) then TrimEnd(s[..|s| - 1]) else s
  }

  /** `s.trim()`: the longest infix of `s` that neither starts nor ends with white space. */
  function Trim(s: string): string {
    TrimEnd(TrimStart(s))
  }

  /**
   * `Trim` keeps a contiguous slice `s[i..j]` of its input, strips only white
   * space around it, and the slice neither starts nor ends with white space.
   */
  lemma TrimSlice(s: string) returns (i: nat, j: nat)
    ensures i <= j <= |s| && Trim(s) == s[i..j]
    ensures forall k :: 0 <= k < i ==> IsJsSpace(s[k])
    ensures forall k :: j <= k < |s| ==> IsJsSpace(s[k])
    ensures i < j ==> !IsJsSpace(s[i]) && !IsJsSpace(s[j - 1])
  {
    var t := TrimStart(s);
    i := |s| - |t|;
    j := i + |TrimEnd(t)|;
    assert Trim(s) == s[i..j];
    forall k | j <= k < |s|
      ensures IsJsSpace(s[k])
    {
      assert s[k] == t[k - i];
    }
  }

  /** Trimming is idempotent. */
  lemma TrimIdempotent(s: string)
    ensures Trim(Trim(s)) == Trim(s)
  {
    var t := Trim(s);
    assert |t| > 0 ==> !IsJsSpace(t[0]) by {
      if |t| > 0 {
        assert t[0] == TrimStart(s)[0];
      }
    }
  }

  /** The index of the first occurrence of `c` in `s`. */
  function IndexOf(s: string, c: char): (r: Option<nat>)
    ensures r.Some? ==> r.value < |s| && s[r.value] == c && c !in s[..r.value]
    ensures r.None? ==> c !in s
  {
    if |s| == 0 then None
    else if s[0] == c then Some(0)
    else
      match IndexOf(s[1..], c)
      case None => None
      case Some(i) =>
        assert s[..i + 1] == [s[0]] + s[1..][..i];
        Some(i + 1)
  }

  predicate IsDigit(c: char) {
    '0' <= c <= '9'
  }

  predicate AllDigits(s: string) {
    forall i :: 0 <= i < |s| ==> IsDigit(s[i])
  }

  function DigitChar(d: nat): (c: char)
    requires d < 10
    ensures IsDigit(c)
  {
    ('0' as int + d) as char
  }

  /** The decimal digits of `n`, most significant first, with no leading zero. */
  function NatDigits(n: nat): (r: string)
    ensures |r| >= 1 && AllDigits(r)
    ensures |r| > 1 ==> r[0] != '0'
  {
    if n < 10 then [DigitChar(n)] else NatDigits(n / 10) + [DigitChar(n % 10)]
  }

  /** Reads a string of decimal digits as a natural number. */
  function DigitsValue(s: string): nat
    requires AllDigits(s)
  {
    if |s| == 0 then 0 else DigitsValue(s[..|s| - 1]) * 10 + (s[|s| - 1] as int - '0' as int)
  }

  /** Rendering a natural number and reading it back yields the number. */
  lemma {:induction false} DigitsRoundTrip(n: nat)
    ensures DigitsValue(NatDigits(n)) == n
  {
    if n >= 10 {
      var r := NatDigits(n);
      assert r[..|r| - 1] == NatDigits(n / 10);
      DigitsRoundTrip(n / 10);
    }
  }

  /** `String(n)` for an integer in the range where JavaScript prints plain decimals. */
  function IntToString(n: int): string {
    if n < 0 then "-" + NatDigits(-n) else NatDigits(n)
  }

  /** A number of at most two digits, left-padded with `0` to width two (`padStart(2, '0')`). */
  function Pad2(n: nat): (r: string)
    ensures AllDigits(r)
    ensures n < 100 ==> |r| == 2 && DigitsValue(r) == n
  {
    var digits := NatDigits(n);
    if |digits| < 2 then
      DigitsRoundTrip(n);
      "0" + digits
    else
      DigitsRoundTrip(n);
      assert n >= 10;
      assert n / 10 < 10 ==> |NatDigits(n / 10)| == 1;
      digits
  }
}

=== FILE: web_storage.dfy ===
/**
 * The browser's two Web Storage areas (`localStorage` and `sessionStorage`)
 * as string-to-string maps, and the session keys the client reads and clears.
 */
module WebStorage {
  import opened Wrappers

  type Storage = map<string, string>

  datatype Browser = Browser(local: Storage, session: Storage)

  const AuthTokenKey := "authToken"
  const IdTokenKey := "idToken"
  const UserKey := "user"

  /** `storage.getItem(key)`: the stored string, or `null` (here `None`). */
  function GetItem(s: Storage, key: string): (r: Option<string>)
    ensures r.Some? <==> key in s
    ensures r.Some? ==> r.value == s[key]
  {
    if key in s then Some(s[key]) else None
  }

  /** `!!storage.getItem(key)`: the key is stored with a non-empty value. */
  predicate Holds(s: Storage, key: string) {
    key in s && s[key] != ""
  }

  /** `storage.removeItem(key)`. */
  function RemoveItem(s: Storage, key: string): (r: Storage)
    ensures key !in r
    ensures forall k :: k in s && k != key ==> k in r && r[k] == s[k]
    ensures forall k :: k in r ==> k in s
  {
    s - {key}
  }
}

=== FILE: wrappers.dfy ===
/** Failure-compatible wrappers shared by every module of the model. */
module Wrappers {

  /** A value that may be absent (JavaScript `undefined`/`null` at a boundary). */
  datatype Option<+T> = None | Some(value: T) {
    function GetOr(default: T): T {
      match this
      case Some(v) => v
      case None => default
    }
  }

  /** The outcome of an operation that can reject with an error value. */
  datatype Result<+R, +E> = Success(value: R) | Failure(error: E)
}
